=== FILE: README.md ===
# Recaller: a Dafny model of its sequential core

Recaller picks one person out of a crowd. It has two sides:

- **Live side.** A frame producer reads camera frames. It stamps each frame with a running id and pushes it into bounded queues. A detect worker runs a YOLO-style face detector on each frame. It keeps faces scoring above 0.5 and pushes their crops into a face queue.
- **Offline side.** The "targetter" packager walks a directory of still images and runs the same detector. It can narrow overlapping boxes with non-maximum suppression (NMS). It then writes each non-empty face crop as `face_NNNN.jpg`, with one counter for the whole directory.
- **Command line.** It chooses between the two sides. It inserts the default mode when none is given.

This project models that core and proves its properties. It covers:

- the decode, filter and clamp step for one detection;
- the packager's run, including the file-name filter, the counter, the names and the NMS and no-NMS write paths;
- the bounded queues, with their drop-oldest and drop-newest overflow policies;
- one step of the frame producer;
- the detect worker's per-frame transform;
- the argv rewrite and the flag dispatch of both entry points.

All of these are modelled sequentially. OpenCV is treated as opaque:

- The detector's output for an image or frame is a parameter: a sequence of output layers of raw detections.
- Each raw detection holds its scaled integer centre and size and its class-score tail.
- `cv2.dnn.NMSBoxes` is an uninterpreted function parameter.
- Image files are identified by their dimensions.
- Each `cv2.imwrite` becomes an entry in a returned log.

Modules and files:

| file | module | models |
|---|---|---|
| wrappers.dfy | Wrappers | `Option` |
| detection.dfy | Detection | argmax, the two keep rules (packager `>=` threshold, worker `> 0.5`), box clamp, numpy slice emptiness |
| face_names.dfy | FaceNames | `f"face_{count:04d}.jpg"` and its inverse |
| queues.dfy | Queues | `queue.Queue(maxsize)` as the class `BoundedQueue`, plus pure drop-newest and drop-oldest push functions |
| producer.dfy | Producer | `FrameProducer` as a class with one `Step` of its capture loop |
| workers.dfy | Workers | `DetectWorker.process_frame` as a method on a class holding the face queue |
| packager.dfy | Packager | `FacePackager.run`, as a method and as a prefix-recursive specification `PackRun` |
| cli.dfy | Cli | `parse_args_with_default_mode`'s argv rewrite, `main` of run.py and `main` of target_packager.py |

Methods are proved against specification functions, whose properties are then proved as lemmas:

- `Packager.Run` is proved against `PackRun`.
- `Workers.DetectWorker.ProcessFrame` is proved against `WorkerScan` and `PushAllDropNewest`.
- `Producer.FrameProducer.Step` is proved against `Deliver`.

## Two details of the source

- **Two keep rules.** The packagers keep a detection whose score equals the threshold: they skip only on `confidence < threshold` (targetter.py:59, target_packager.py:53). The live workers keep only `confidence > 0.5`, with class 1 hard-coded (workers.py:63,73; detect_worker.py:33,43). So they drop a face scoring exactly 0.5. `Detection.KeepRulesDifferAtThreshold` proves that this is the only place the two rules differ.
- **Boxes without area.** A kept box whose clamped width or height is zero or negative is still appended to `boxes` (targetter.py:68-71), and it is offered to NMS. For non-negative detector sizes, only the crop-emptiness test at write time (targetter.py:77-79) skips it. A negative detector width is different: numpy reads the negative slice end from the right, so the crop can be non-empty, and the packager then writes it. `Detection.NegativeWidthCropWraps` shows one such detection: its crop `[30:-10]` on a 100-pixel-wide image selects 60 columns.

## Model

| member | source | states |
|---|---|---|
| Detection.PackagerKeeps | targetter.py:59-60 | no contract; it negates the source's skip condition, and its meaning is stated by `PackagerKeepsIff` |
| Detection.WorkerKeeps | workers.py:63-73 | no contract; `confidence > 0.5` and then `class_id == 1`, stated by `WorkerKeepsIff` |
| Detection.Edge | targetter.py:66-67 | no contract; `int(center - size / 2)` computed as `TruncHalf(2 * center - size)`, stated through `ClampBox` |
| Detection.Max | targetter.py:66-67 | no contract; the `max(0, …)` of the clamped origin, stated through `ClampBox` |
| Detection.Min | targetter.py:68-69 | no contract; the `min(w, width - x)` of the clamped side, stated through `ClampBox` |
| Detection.CropEmpty | targetter.py:77-78 | no contract; `image[y:y + h, x:x + w].size == 0` through `SliceLength`, stated by `ClampedCropSize` and `NegativeWidthCropWraps` |
| Detection.Flatten | targetter.py:53-54 | no contract; the nested `for output in outputs: for detection in output` order, stated by `FlattenAppend` |
| Detection.ArgMax | targetter.py:56 | the index returned is the first position holding the maximum score (numpy's tie rule) |
| Detection.Classify | targetter.py:55-57 | no class scores ⇔ no classification (argmax raises); otherwise `class_id` is `ArgMax(scores)`, the first index of the maximum, and `confidence` is the score at that index, the maximum |
| Detection.TruncHalf | targetter.py:66 | `int(n / 2)` truncates toward zero, for negative `n` as well |
| Detection.SliceBound | targetter.py:77 | a slice bound is normalised into `0..n`: negative bounds count from the end, and a bound past the end stops at it; its use is stated by `SliceLength`, `ClampedCropSize` and `NegativeWidthCropWraps` |
| Detection.ClampBox | targetter.py:62-69 | the clamped box lies inside the image; its origin is `max(0, trunc(c - size/2))`; each side keeps its detector size unless the box crossed that edge, in which case it now ends on the edge |
| Detection.SliceLength | targetter.py:77 | a Python slice selects at most the dimension's length, and exactly `stop - start` elements for in-range bounds |
| Detection.PackagerVerdict | targetter.py:53-72 | a detection raises exactly when it has no scores; a kept one reaches the threshold with its maximum score, has the face class as argmax, and its box is `ClampBox` of the detection, inside the image |
| Detection.WorkerVerdict | workers.py:58-73 | the same for the live rule: the maximum score is strictly above 0.5, the argmax class is 1, and the box is `ClampBox` of the detection |
| Detection.PackagerKeepsIff | targetter.py:59-60 | the packagers keep a detection iff its maximum score is `>= threshold` and its argmax is the face class |
| Detection.WorkerKeepsIff | workers.py:60-73 | the live workers keep a detection iff its maximum score is `> 0.5` and its argmax is class 1 |
| Detection.KeepRulesDifferAtThreshold | target_packager.py:53-54 | with the packager defaults, whatever the worker keeps the packager keeps with the same box; the packager alone keeps exactly the faces scoring exactly 0.5 |
| Detection.ClampKeepsFittingBox | targetter.py:66-69 | a box that already fits is left unchanged |
| Detection.ClampedCropSize | targetter.py:77-78 | for non-negative detector sizes, the crop has exactly the clamped width and height, so "empty crop" ⇔ clamped `w <= 0` or `h <= 0` |
| Detection.NegativeWidthCropWraps | targetter.py:59-79 | a detection with a negative width, kept by the packager rule, has a non-empty crop: `[30:-10]` selects 60 of 100 columns |
| Detection.FlattenAppend | targetter.py:53-54 | walking the layers of `a + b` visits the detections of `a`, then those of `b` |
| FaceNames.Decimal | targetter.py:81 | the decimal form is a non-empty string of digits with no leading zero, except `"0"` itself |
| FaceNames.FaceName | targetter.py:81 | no contract; its meaning is stated by `FaceNameShape`, `FaceNameRoundTrip`, `FaceNameInjective`, `FaceNameFourDigits` and `FaceNameSeven` |
| FaceNames.DecimalLength | targetter.py:81 | a number below `10^k` has at most `k` decimal digits |
| FaceNames.FaceNameFourDigits | targetter.py:81 | below 10000 every name is exactly 13 characters: `face_`, four digits, `.jpg` |
| FaceNames.FaceNameSeven | targetter.py:81 | counter value 7 gives `face_0007.jpg` |
| FaceNames.ZeroPad | targetter.py:81 | `:04d` padding gives exactly `width` characters, or the length of the digits when that is larger: the digits unchanged at the end, zeros before them |
| FaceNames.FaceNameShape | targetter.py:81 | a generated name is `face_`, then at least four digits, then `.jpg` |
| FaceNames.DecimalRoundTrip | targetter.py:81 | the value of the decimal form of `n` is `n` |
| FaceNames.ZeroPadValue | targetter.py:81 | zero padding does not change the value of the digits |
| FaceNames.FaceNameRoundTrip | targetter.py:81 | parsing a generated name gives back its count |
| FaceNames.FaceNameInjective | targetter.py:81 | different counts give different names |
| Queues.PushDropNewest | workers.py:79-86 | `put_nowait` appends exactly when there is room, otherwise it leaves the queue unchanged; it never exceeds capacity |
| Queues.PushAllDropNewest | workers.py:79-86 | no contract; successive `put_nowait` pushes with `Full` dropped, stated by `DropNewestKeepsOldest` |
| Queues.PushDropOldest | producer.py:34-39 | on a full queue the oldest item goes and the new one is appended at the back, so the length stays the same; on a non-full queue the item is appended |
| Queues.DropNewestKeepsOldest | workers.py:79-86 | successive drop-newest pushes keep what was queued and admit new items, in order, until full; later ones are lost; the length never exceeds capacity |
| Queues.DropOldestKeepsNewest | producer.py:32-39 | successive drop-oldest pushes leave exactly the newest `capacity` items of everything offered, in order |
| Queues.NewestStep | producer.py:34-39 | one drop-oldest push onto the newest items of `s` gives the newest items of `s + [x]` |
| Queues.BoundedQueue.constructor | run.py:16-17 | a new queue is empty, with the given positive capacity |
| Queues.BoundedQueue.Full | producer.py:34 | no contract; `q.full()`, the queue holds `capacity` items; stated through `PutNowait` and `FrameProducer.Step` |
| Queues.BoundedQueue.PutNowait | producer.py:39-41 | appends iff the queue is not full and reports whether it did; otherwise it is unchanged (`Full`); the capacity invariant is kept |
| Queues.BoundedQueue.GetNowait | producer.py:35-38 | removes and returns the oldest item; on an empty queue returns nothing and changes nothing (`Empty`) |
| Producer.Deliver | producer.py:32-41 | no contract; one queue's `get_nowait`-when-full-and-`drop_old`, then `put_nowait`, stated by `DeliverIsPolicy` |
| Producer.DeliverIsPolicy | producer.py:34-41 | on a queue within capacity, the producer's per-queue code is drop-oldest when `drop_old` is set and drop-newest otherwise, and the queue stays within capacity |
| Producer.FrameProducer.constructor | producer.py:7-13 | `frame_id` starts at 0; the queues and `drop_old` are those given |
| Producer.FrameProducer.Step | producer.py:18-41 | a failed read changes nothing; otherwise the payload carries the current `frame_id`, the id rises by exactly 1 whatever the queues do, and every queue independently receives the same payload under the policy, staying within capacity |
| Workers.WorkerScan | workers.py:58-76 | a frame yields at most one crop per detection |
| Workers.ScanNext | workers.py:60-76 | no contract; one detection of the inner loop either raises, is skipped (dropped or empty crop) or appends its clamped box; stated through `WorkerScan`'s lemmas |
| Workers.FaceItems | workers.py:80-84 | every queued item carries the frame's `frame_id` and `timestamp` unchanged, with the crops in order |
| Workers.ScanCropsInside | workers.py:68-76 | every crop pushed is non-empty and lies inside the frame |
| Workers.ScanFailsIff | workers.py:60-62 | processing a frame raises iff some detection has no class scores |
| Workers.NoCropAtOrBelowThreshold | workers.py:63-73 | a frame in which every detection scores at most 0.5 or is not class 1 yields nothing |
| Workers.CropIndicesSound | workers.py:60-76 | the positions listed are increasing, and each one holds a face scoring strictly above 0.5, class 1, with a non-empty crop |
| Workers.CropIndicesComplete | workers.py:60-76 | every face scoring above 0.5, class 1, with a non-empty crop is listed, whatever else the frame holds |
| Workers.ScanFollowsDetections | workers.py:58-84 | in a frame that does not raise, crop i is the clamped box of the i-th listed detection, so the crops are exactly those faces' boxes in detection order |
| Workers.NoCropFromBelowThreshold | workers.py:60-73 | a detection scoring at most 0.5, or not of class 1, yields no crop, even in a frame with faces above 0.5 |
| Workers.EveryFaceIsCropped | workers.py:58-84 | when every detection is a face above 0.5 with a non-empty crop, each one's clamped box is pushed, in detection order, with no suppression |
| Workers.ScanStops | workers.py:58-62 | once a detection raises, no later detection of the frame is looked at |
| Workers.DetectWorker.constructor | workers.py:37-39 | the worker pushes into the face queue it was given |
| Workers.DetectWorker.ProcessFrame | workers.py:48-86 | the face queue receives the frame's crops under drop-newest, in order, and stays within capacity; the method reports failure exactly where Python raises, keeping the pushes made before it |
| Packager.TargetterPackager | targetter.py:14-21 | no contract; targetter.py's constructor defaults (threshold 0.5, class 1, NMS on), stated by `DefaultNmsModesDiffer` and `Cli.RunMain` |
| Packager.LowerChar | targetter.py:36 | no contract; one character of `lower()`, stated by `Lower` |
| Packager.StandalonePackager | target_packager.py:9-15 | no contract; target_packager.py's constructor defaults (threshold 0.5, class 1, NMS off), stated by `DefaultNmsModesDiffer` and `Cli.PackagerMain` |
| Packager.HasImageExtension | targetter.py:36 | no contract; a name passes when its lower-case form ends in `.jpg`, `.jpeg`, `.png` or `.bmp`, stated by `ImageExtensionIgnoresCase`, `FaceNameIsImage` and `SkippedFileNoEffect` |
| Packager.EndsWith | targetter.py:36 | no contract; `str.endswith`, the string ends with the suffix characters, in order; stated through `FaceNameIsImage` and `ImageExtensionIgnoresCase` |
| Packager.Lower | targetter.py:36 | `lower()` maps each ASCII upper-case letter to its lower-case partner and changes nothing else |
| Packager.ImageExtensionIgnoresCase | targetter.py:36 | the extension filter ignores case |
| Packager.FaceNameIsImage | targetter.py:81 | the packager's own output names pass its extension filter |
| Packager.Decoded | targetter.py:50-72 | at most one candidate per detection; its meaning is stated by `DecodedFailsIff`, `DecodedKept`, `KeptIndicesSound`, `KeptIndicesComplete` and `DecodedFollowsDetections` |
| Packager.DecodeNext | targetter.py:55-72 | no contract; one detection's effect on `boxes`/`confidences` (raise, skip or append), stated through `Decoded`'s lemmas |
| Packager.Boxes | targetter.py:50-71 | the `boxes` list: entry i is the box of candidate i, with one entry per candidate |
| Packager.Confidences | targetter.py:51-72 | the `confidences` list: entry i is the confidence of candidate i, at the same position as its box |
| Packager.DecodedFailsIff | targetter.py:55-57 | decoding an image raises iff some detection has no class scores |
| Packager.DecodedKept | targetter.py:59-72 | every kept candidate reaches the threshold, and its box lies inside the image |
| Packager.KeptIndicesSound | targetter.py:53-60 | the positions listed are increasing, and each is a detection the packager rule keeps |
| Packager.KeptIndicesComplete | targetter.py:53-60 | every detection the packager rule keeps is listed |
| Packager.DecodedFollowsDetections | targetter.py:50-72 | entry i of `boxes`/`confidences` comes from the i-th kept detection, with that detection's box and confidence |
| Packager.DecodedStops | targetter.py:53-57 | once a detection raises, the image's decode has failed whatever follows |
| Packager.DecodeDetections | targetter.py:50-72 | `boxes` and `confidences` always have equal length; on success they hold the boxes and confidences of the kept detections; `ok` is false exactly where numpy raises |
| Packager.DecodeLayer | targetter.py:54-72 | one output layer continues the candidates decoded before it |
| Packager.Unwrap | targetter.py:87 | no contract; `i[0]` for a wrapped entry, `i` otherwise, stated by `ResolveValid` and `ResolveFails` |
| Packager.PyIndex | targetter.py:88 | no contract; Python's `boxes[i]` with negative indices, stated by `LookupEntry` and `ResolveValid` |
| Packager.Lookup | targetter.py:87-88 | no contract; the box an entry designates, or `IndexError`, stated by `LookupEntry`, `ResolveValid` and `ResolveFails` |
| Packager.Resolve | targetter.py:86-88 | at most one box per returned index; the only failure is `IndexError` |
| Packager.ResolveValid | targetter.py:85-88 | when every returned entry designates a box, exactly the boxes at the returned (unwrapped) indices are picked, in returned order |
| Packager.ResolveInside | targetter.py:86-88 | every box picked by NMS is one of the offered boxes, so it lies inside the image |
| Packager.ResolveFails | targetter.py:87-88 | an entry that designates no box ends the selection with `IndexError` |
| Packager.WriteCrops | targetter.py:75-83 | at most one file is written per box |
| Packager.WriteCropsEntries | targetter.py:75-83 | the k-th file written for an image is a non-empty crop of that image, under the k-th counter value from where the count stood |
| Packager.WriteCropsInside | targetter.py:75-83 | every box written lies inside the image when every box offered does |
| Packager.WriteCropsEveryBox | targetter.py:74-83 | when no crop is empty, every box is written in list order, one name per box |
| Packager.WriteCropsSkipsEmpty | targetter.py:77-79 | a list made only of empty crops writes nothing and leaves the count unchanged |
| Packager.NonEmptyBoxesMembers | targetter.py:77-79 | a box is among the non-empty boxes exactly when it is offered and its crop is not empty |
| Packager.WriteCropsNonEmpty | targetter.py:75-83 | the files written for any list of boxes are exactly its non-empty crops, in list order: an empty crop is skipped and writing goes on with the next box |
| Packager.WriteAll | targetter.py:74-83 | the no-NMS branch writes the non-empty crops in list order, and the count rises by exactly the number of files written |
| Packager.LookupEntry | targetter.py:87-88 | unwrapping an `NMSBoxes` entry and indexing `boxes` with it, with Python's negative indices; nothing where either raises |
| Packager.WriteSelected | targetter.py:84-95 | the NMS branch writes the non-empty crops of the selected boxes in returned order, stops at an entry that raises, and the count rises by the number written |
| Packager.WriteEntry | targetter.py:86-95 | one entry of the NMS loop either raises, writing nothing, or extends the selection and the written files |
| Packager.ProcessFile | targetter.py:35-95 | no contract; one directory entry of `run`: skipped, failed, or written through the no-NMS or NMS branch, stated by `PackFile`, `SkippedFileNoEffect`, `NoNmsWritesEveryBox` and `NmsWritesSelected` |
| Packager.PackRun | targetter.py:32-95 | no contract; the whole run over the listing, stopped at the first failure, stated by `Run`, `PackRunStops`, `PackRunNames`, `PackRunNamesDistinct`, `PackRunCumulative` and `PackRunBoxesInside` |
| Packager.PackFile | targetter.py:35-95 | the loop body for one directory entry appends to the log exactly the files `ProcessFile` adds, and its failure is `ProcessFile`'s |
| Packager.Run | targetter.py:32-97 | `FacePackager.run` writes exactly the files `PackRun` lists, in order; the count equals the number written |
| Packager.PackRunStops | targetter.py:35-57 | after an exception, later files are not processed |
| Packager.PackRunNames | targetter.py:33-83 | the counter starts at 0 once per run and is never reset: the i-th file written gets counter value i |
| Packager.PackRunNamesDistinct | target_packager.py:27-89 | no two files written in one run get the same name |
| Packager.PackRunCumulative | targetter.py:35-95 | processing more files only adds writes: earlier writes are a prefix of later ones |
| Packager.PackRunBoxesInside | target_packager.py:60-73 | every file written is a non-empty crop of a box lying inside its image |
| Packager.SkippedFileNoEffect | targetter.py:36-43 | a file without an image extension, or one that cannot be read, writes nothing and leaves the count unchanged |
| Packager.NoNmsWritesEveryBox | targetter.py:74-83 | without NMS and with no empty crop, every kept detection is written, in decode order, and the count rises by exactly their number |
| Packager.NmsWritesSelected | targetter.py:84-95 | with NMS and every returned entry valid, exactly the boxes at the returned indices are written, in returned order, minus empty crops |
| Packager.DefaultNmsModesDiffer | target_packager.py:9 | target_packager.py defaults `nms_mode` to False, targetter.py to True |
| Cli.ModeArgs | run.py:73-78 | the rewritten arguments end with the original ones in order; when the default is a mode and argv holds the program name, they start with a mode |
| Cli.NoArgs | run.py:75-76 | with no arguments the parser sees exactly `[default_mode]` |
| Cli.PrependDefault | run.py:73-74 | a first argument that is not a mode gets the default mode in front, and the rest keep their order |
| Cli.PassThrough | run.py:77-78 | a first argument that is a mode leaves the arguments unchanged |
| Cli.ModeArgsIdempotent | run.py:52-78 | when the default is a mode, rewriting the rewritten arguments changes nothing |
| Cli.RunMain | run.py:89-113 | any mode but targetter runs live; `--test_recognition` trains on the output directory, tests on the off-target output directory and never packages; `--build_test_images` selects the off-target directories with NMS on; otherwise NMS is off exactly with `--no_nms` |
| Cli.PackagerMain | target_packager.py:99-111 | `--build_test` selects the off-target directories with NMS on; `--no_nms` alone keeps the default directories with NMS off; no flags gives the default directories with NMS on |
| Cli.BuildTestOverridesNoNms | target_packager.py:102-107 | `--build_test` silently overrides `--no_nms` in both entry points |
| Cli.MainsAgree | run.py:101-109 | packaging through run.py's targetter mode configures the same packager as target_packager.py with the corresponding flags |
| Cli.TestRecognitionNeverPackages | run.py:96-99 | `--test_recognition` never packages, whatever the other flags say |

## Left out

- `cv2.dnn.NMSBoxes` internals are not modelled; NMS is an opaque function parameter. The repository calls a library it cannot see.
- Floating-point scaling of the normalised coordinates (`int(detection[0] * width)` and the like) is not modelled. The model takes the scaled integer centre and size as inputs.
- Class scores are reals that are only compared; NaN scores are not modelled.
- OpenCV I/O is not modelled. This covers `imread`, `blobFromImage`, the forward pass, `os.listdir` order and the 150x150 `resize`. The image, the detector output and the listing are inputs, and a crop is represented by its box.
- `imwrite` paths are not modelled. A written file is its counter value, and its name is `FaceName(number)` inside the output directory.
- `os.makedirs` and loading the model weights are not modelled.
- The `[DONE]` and `[WARN]` prints are not modelled.
- Threads are left out: `WorkerBase.run`'s stop-event loop, the stop-event shell of `FrameProducer.run`, `run_system` (run.py:12-45) and coordinator.py. One producer `Step` and one `ProcessFrame` are modelled.
- An exception inside `process_frame` is caught and printed by `WorkerBase.run`. The model reports it as `failed`.
- `FaceTrainer` (LBPH training and testing), recognizer.py, camera_stream.py, face_worker.py and `FaceWorker` are not part of this model. They are OpenCV calls or prints only.
- run_stub.py is not part of this model; it duplicates target_packager.py's `main` and does not import what it uses.
- argparse is not modelled, including the `--help` short-circuit (run.py:69-70) and the `run_targetter` stub (run.py:48-49). The dispatch functions take the parsed mode and flags.
- The directories named in config (`INPUT_DIR`, `OUTPUT_DIR`, `OFFTARGET_*`, `TARGET_FACE_PATH`) are not defined in config.py. They are parameters here.
- `Lower`: models `str.lower()` on ASCII letters only; non-ASCII case mapping is not modelled.
- Queues of `maxsize <= 0`, which Python treats as unbounded, are not modelled. A `BoundedQueue` has a positive capacity, as both queues in run.py have (size 5).
- `Producer.FrameProducer.Step`: requires the output queues to be distinct objects. The source passes a one-element list.
- `Detection.ClampedCropSize`: shows that "empty crop" equals "clamped `w <= 0` or `h <= 0`" only for non-negative detector sizes. `CropEmpty` itself follows numpy's slice rules for any input: with a negative width the slice wraps and can be non-empty, as `NegativeWidthCropWraps` shows.
- `FacePackager.run`'s loop bodies are split into helper methods: `PackFile` (one directory entry), `DecodeLayer` (one output layer), `WriteEntry` (one `NMSBoxes` entry) and `LookupEntry` (unwrap and index). The iteration order and effects are the same. `DetectWorker.process_frame` keeps both of its loops inline.

=== FILE: cli.dfy ===
/**
 * The command line: run.py's rewrite of `sys.argv` that makes the mode
 * optional, and the flag dispatch of run.py's `main` and of
 * target_packager.py's `main`. Parsing itself (argparse, `--help`) is not
 * modelled: a dispatch takes the parsed mode and flags. The directories
 * named in config are parameters.
 */
module Cli {
  import opened Packager

  /** The sub-command names the parser accepts. */
  const Modes: seq<string> := ["live", "targetter"]

  const DefaultMode: string := "live"

  /**
   * The argument list `parse_args_with_default_mode` hands to the parser
   * for `argv` (`sys.argv`, program name first).
   */
  function ModeArgs(argv: seq<string>, defaultMode: string := DefaultMode): (r: seq<string>)
    ensures |argv| >= 1 && defaultMode in Modes ==> |r| > 0 && r[0] in Modes
    ensures |argv| >= 1 ==> |argv| - 1 <= |r| && r[|r| - (|argv| - 1)..] == argv[1..]
    ensures |r| <= |argv|
  {
    if |argv| > 1 && argv[1] !in Modes then [defaultMode] + argv[1..]
    else if |argv| == 1 then [defaultMode]
    else if |argv| == 0 then []
    else argv[1..]
  }

  /** With no arguments the parser sees the default mode alone. */
  lemma NoArgs(program: string, defaultMode: string)
    ensures ModeArgs([program], defaultMode) == [defaultMode]
  {
  }

  /** An argument list not headed by a mode gets the default mode in front, the rest in order. */
  lemma PrependDefault(argv: seq<string>, defaultMode: string)
    requires |argv| > 1 && argv[1] !in Modes
    ensures ModeArgs(argv, defaultMode) == [defaultMode] + argv[1..]
    ensures ModeArgs(argv, defaultMode)[1..] == argv[1..]
  {
  }

  /** An argument list headed by a mode is passed on unchanged. */
  lemma PassThrough(argv: seq<string>, defaultMode: string)
    requires |argv| > 1 && argv[1] in Modes
    ensures ModeArgs(argv, defaultMode) == argv[1..]
  {
  }

  /**
   * When the default is itself a mode, rewriting the rewritten arguments
   * again (behind the same program name) changes nothing.
   */
  lemma ModeArgsIdempotent(argv: seq<string>, defaultMode: string)
    requires |argv| >= 1 && defaultMode in Modes
    ensures ModeArgs([argv[0]] + ModeArgs(argv, defaultMode), defaultMode) == ModeArgs(argv, defaultMode)
  {
    var r := ModeArgs(argv, defaultMode);
    var again := [argv[0]] + r;
    assert again[1] == r[0];
    assert again[1..] == r;
  }

  /** `config.INPUT_DIR`, `OUTPUT_DIR`, `OFFTARGET_INPUT_DIR`, `OFFTARGET_OUTPUT_DIR`, `TARGET_FACE_PATH`. */
  datatype Dirs = Dirs(input: string, output: string, offtargetInput: string, offtargetOutput: string,
                       targetFacePath: string)

  /** The `targetter` sub-command's flags. */
  datatype TargetterFlags = TargetterFlags(buildTestImages: bool, noNms: bool, testRecognition: bool)

  /** What `main` goes on to do. */
  datatype Action =
    | RunLive
    | TrainAndTest(trainDir: string, testDir: string, targetFacePath: string)
    | Package(cfg: Config)

  /** run.py's `main` after parsing: the action for the parsed mode and flags. */
  function RunMain(mode: string, flags: TargetterFlags, dirs: Dirs): (a: Action)
    ensures a.RunLive? <==> mode != "targetter"
    ensures a.TrainAndTest? <==> mode == "targetter" && flags.testRecognition
    ensures a.TrainAndTest? ==> a == TrainAndTest(dirs.output, dirs.offtargetOutput, dirs.targetFacePath)
    ensures a.Package? ==> (a.cfg.nmsMode <==> flags.buildTestImages || !flags.noNms)
    ensures a.Package? && flags.buildTestImages ==>
      a.cfg.inputDir == dirs.offtargetInput && a.cfg.outputDir == dirs.offtargetOutput
    ensures a.Package? && !flags.buildTestImages ==> a.cfg.inputDir == dirs.input && a.cfg.outputDir == dirs.output
    ensures a.Package? ==> a.cfg.confidenceThreshold == 0.5 && a.cfg.faceClassId == 1
  {
    if mode == "targetter" then
      if flags.testRecognition then TrainAndTest(dirs.output, dirs.offtargetOutput, dirs.targetFacePath)
      else if flags.buildTestImages then Package(TargetterPackager(dirs.offtargetInput, dirs.offtargetOutput, nmsMode := true))
      else if flags.noNms then Package(TargetterPackager(dirs.input, dirs.output, nmsMode := false))
      else Package(TargetterPackager(dirs.input, dirs.output, nmsMode := true))
    else RunLive
  }

  /** target_packager.py's `main`: the packager its `--build_test` and `--no_nms` flags select. */
  function PackagerMain(buildTest: bool, noNms: bool, dirs: Dirs): (cfg: Config)
    ensures cfg.nmsMode <==> buildTest || !noNms
    ensures buildTest ==> cfg.inputDir == dirs.offtargetInput && cfg.outputDir == dirs.offtargetOutput
    ensures !buildTest ==> cfg.inputDir == dirs.input && cfg.outputDir == dirs.output
    ensures cfg.confidenceThreshold == 0.5 && cfg.faceClassId == 1
  {
    if buildTest then StandalonePackager(dirs.offtargetInput, dirs.offtargetOutput, nmsMode := true)
    else if noNms then StandalonePackager(dirs.input, dirs.output, nmsMode := false)
    else StandalonePackager(dirs.input, dirs.output, nmsMode := true)
  }

  /** `--build_test` wins over `--no_nms`: the off-target directories, with NMS on. */
  lemma BuildTestOverridesNoNms(dirs: Dirs)
    ensures PackagerMain(true, true, dirs) == PackagerMain(true, false, dirs)
    ensures RunMain("targetter", TargetterFlags(true, true, false), dirs)
         == RunMain("targetter", TargetterFlags(true, false, false), dirs)
  {
  }

  /**
   * The two entry points agree: packaging through run.py's `targetter` mode
   * configures the same packager as target_packager.py with the
   * corresponding flags, although the two `FacePackager` classes default
   * `nms_mode` differently.
   */
  lemma MainsAgree(buildTest: bool, noNms: bool, dirs: Dirs)
    ensures RunMain("targetter", TargetterFlags(buildTest, noNms, false), dirs) == Package(PackagerMain(buildTest, noNms, dirs))
  {
  }

  /** `--test_recognition` trains and tests and never packages, whatever the other flags say. */
  lemma TestRecognitionNeverPackages(flags: TargetterFlags, dirs: Dirs)
    requires flags.testRecognition
    ensures !RunMain("targetter", flags, dirs).Package?
  {
  }
}

=== FILE: detection.dfy ===
/**
 * Decoding of one detector row into a pixel box, the two keep rules, and the
 * emptiness test of the crop taken from the box.
 *
 * The same decode/filter/clamp code appears four times in the repository
 * (targetter.py, target_packager.py, workers.py, detect_worker.py); it is
 * defined once here. The offline packagers and the live workers differ only
 * in the keep rule, so both rules are given: PackagerKeeps and WorkerKeeps.
 *
 * The detector's normalised coordinates are scaled and truncated by floating
 * point code (`int(detection[0] * width)`); the model takes the resulting
 * integer centre and size as its input. Class scores are reals that are only
 * compared.
 */
module Detection {
  import opened Wrappers

  /** One detector row: the pixel centre and size after scaling, and the class-score tail `detection[5:]`. */
  datatype RawDetection = RawDetection(centerX: int, centerY: int, width: int, height: int, scores: seq<real>)

  /** An image; its pixels are opaque, only its dimensions matter here. */
  datatype Image = Image(width: nat, height: nat)

  /** A pixel box `[x, y, w, h]` as the source appends it to `boxes`. */
  datatype Box = Box(x: int, y: int, w: int, h: int)

  /** The result of `np.argmax(scores)` and `scores[class_id]`. */
  datatype Classification = Classification(classId: nat, confidence: real)

  /** What one detection contributes: an exception (no class scores), nothing, or a box with its confidence. */
  datatype Verdict = Malformed | Dropped | Kept(box: Box, confidence: real)

  /** The threshold and class the live workers hard-code. */
  const LiveThreshold: real := 0.5
  const LiveFaceClass: nat := 1

  function Max(a: int, b: int): int { if a < b then b else a }
  function Min(a: int, b: int): int { if a < b then a else b }

  /** The first index at which the maximum score occurs, as numpy's argmax returns it. */
  function ArgMax(s: seq<real>): (k: nat)
    requires |s| > 0
    ensures k < |s|
    ensures forall j :: 0 <= j < |s| ==> s[j] <= s[k]
    ensures forall j :: 0 <= j < k ==> s[j] < s[k]
  {
    if |s| == 1 then 0
    else
      var k := ArgMax(s[..|s| - 1]);
      if s[|s| - 1] > s[k] then |s| - 1 else k
  }

  /** `m` is the largest score of `s`. */
  ghost predicate IsMaxScore(s: seq<real>, m: real)
  {
    (exists j :: 0 <= j < |s| && s[j] == m) && forall j :: 0 <= j < |s| ==> s[j] <= m
  }

  /** Class id and confidence of a score tail; numpy's argmax raises on an empty one. */
  function Classify(scores: seq<real>): (c: Option<Classification>)
    ensures c.None? <==> |scores| == 0
    ensures c.Some? ==> c.value.classId < |scores| && IsMaxScore(scores, c.value.confidence)
    ensures c.Some? ==> forall j :: 0 <= j < c.value.classId ==> scores[j] < c.value.confidence
    ensures c.Some? ==> c.value.classId == ArgMax(scores) && c.value.confidence == scores[c.value.classId]
  {
    if |scores| == 0 then None
    else
      var k := ArgMax(scores);
      Some(Classification(k, scores[k]))
  }

  /** The packagers skip a detection when `confidence < threshold or class_id != face_class_id`. */
  predicate PackagerKeeps(c: Classification, threshold: real, faceClassId: int)
  {
    !(c.confidence < threshold || c.classId != faceClassId)
  }

  /** The live workers go on only when `confidence > 0.5` and then `class_id == 1`. */
  predicate WorkerKeeps(c: Classification)
  {
    c.confidence > LiveThreshold && c.classId == LiveFaceClass
  }

  /** Python's `int(n / 2)`: the half of `n`, truncated toward zero. */
  function TruncHalf(n: int): (r: int)
    ensures n >= 0 ==> 0 <= 2 * r <= n <= 2 * r + 1
    ensures n < 0 ==> 2 * r - 1 <= n <= 2 * r <= 0
  {
    if n >= 0 then n / 2 else -((-n) / 2)
  }

  /** `int(center - size / 2)` for integer centre and size: the unclamped left (or top) edge. */
  function Edge(center: int, size: int): int
  {
    TruncHalf(2 * center - size)
  }

  /** The box lies inside the image. */
  predicate BoxInside(b: Box, img: Image)
  {
    0 <= b.x && 0 <= b.y && b.x + b.w <= img.width && b.y + b.h <= img.height
  }

  /**
   * `x = max(0, int(center_x - w / 2))`, `w = min(w, width - x)` and the same
   * for y and h. The result never extends past the image; a side is kept
   * unless the box crossed that edge, in which case the box now ends on it.
   */
  function ClampBox(d: RawDetection, img: Image): (b: Box)
    ensures BoxInside(b, img)
    ensures b.x == Max(0, Edge(d.centerX, d.width)) && b.y == Max(0, Edge(d.centerY, d.height))
    ensures b.w <= d.width && b.h <= d.height
    ensures b.w == d.width || b.x + b.w == img.width
    ensures b.h == d.height || b.y + b.h == img.height
  {
    var x := Max(0, Edge(d.centerX, d.width));
    var y := Max(0, Edge(d.centerY, d.height));
    Box(x, y, Min(d.width, img.width - x), Min(d.height, img.height - y))
  }

  /** Python's normalisation of a slice bound `i` over a dimension of length `n`. */
  function SliceBound(i: int, n: nat): (r: nat)
    ensures r <= n
  {
    if i < 0 then Max(0, i + n) else Min(i, n)
  }

  /** The number of elements the Python slice `[start:stop]` selects from a dimension of length `n`. */
  function SliceLength(start: int, stop: int, n: nat): (len: nat)
    ensures len <= n
    ensures 0 <= start <= stop <= n ==> len == stop - start
  {
    Max(0, SliceBound(stop, n) - SliceBound(start, n))
  }

  /** `image[y:y + h, x:x + w].size == 0`; an image has at least one channel. */
  predicate CropEmpty(b: Box, img: Image)
  {
    SliceLength(b.y, b.y + b.h, img.height) == 0 || SliceLength(b.x, b.x + b.w, img.width) == 0
  }

  /** Decode and filter one detection with the packagers' rule. */
  function PackagerVerdict(d: RawDetection, img: Image, threshold: real, faceClassId: int): (v: Verdict)
    ensures v.Malformed? <==> |d.scores| == 0
    ensures v.Kept? ==> v.confidence >= threshold && IsMaxScore(d.scores, v.confidence)
    ensures v.Kept? ==> ArgMax(d.scores) == faceClassId && BoxInside(v.box, img)
    ensures v.Kept? ==> v.box == ClampBox(d, img)
  {
    match Classify(d.scores)
    case None => Malformed
    case Some(c) => if PackagerKeeps(c, threshold, faceClassId) then Kept(ClampBox(d, img), c.confidence) else Dropped
  }

  /** Decode and filter one detection with the live workers' rule. */
  function WorkerVerdict(d: RawDetection, img: Image): (v: Verdict)
    ensures v.Malformed? <==> |d.scores| == 0
    ensures v.Kept? ==> v.confidence > LiveThreshold && IsMaxScore(d.scores, v.confidence)
    ensures v.Kept? ==> ArgMax(d.scores) == LiveFaceClass && BoxInside(v.box, img)
    ensures v.Kept? ==> v.box == ClampBox(d, img)
  {
    match Classify(d.scores)
    case None => Malformed
    case Some(c) => if WorkerKeeps(c) then Kept(ClampBox(d, img), c.confidence) else Dropped
  }

  /** The positions are listed in strictly increasing order, that is, in detection order. */
  predicate Increasing(idx: seq<nat>)
  {
    forall i, j :: 0 <= i < j < |idx| ==> idx[i] < idx[j]
  }

  /** The detections of all output layers, layer by layer, in order. */
  function Flatten<T>(xss: seq<seq<T>>): seq<T>
  {
    if |xss| == 0 then [] else Flatten(xss[..|xss| - 1]) + xss[|xss| - 1]
  }

  lemma {:induction false} FlattenAppend<T>(a: seq<seq<T>>, b: seq<seq<T>>)
    ensures Flatten(a + b) == Flatten(a) + Flatten(b)
    decreases |b|
  {
    if |b| == 0 {
      assert a + b == a;
    } else {
      var init, last := b[..|b| - 1], b[|b| - 1];
      assert (a + b)[..|a + b| - 1] == a + init;
      assert (a + b)[|a + b| - 1] == last;
      assert Flatten(a + b) == Flatten(a + init) + last;
      FlattenAppend(a, init);
      assert Flatten(b) == Flatten(init) + last;
    }
  }

  /** The detections of the first `o` layers followed by the first `k` of layer `o` form a prefix of all detections. */
  lemma FlattenPrefix<T>(xss: seq<seq<T>>, o: nat, k: nat)
    requires o < |xss| && k <= |xss[o]|
    ensures |Flatten(xss[..o])| + k <= |Flatten(xss)|
    ensures Flatten(xss[..o]) + xss[o][..k] == Flatten(xss)[..|Flatten(xss[..o])| + k]
  {
    assert xss == xss[..o + 1] + xss[o + 1..];
    FlattenAppend(xss[..o + 1], xss[o + 1..]);
    assert xss[..o + 1][..o] == xss[..o];
    assert Flatten(xss[..o + 1]) == Flatten(xss[..o]) + xss[o];
  }

  lemma FlattenStep<T>(xss: seq<seq<T>>, o: nat)
    requires o < |xss|
    ensures Flatten(xss[..o + 1]) == Flatten(xss[..o]) + xss[o]
  {
    assert xss[..o + 1][..o] == xss[..o];
  }

  // Properties of the decode step

  /**
   * The packagers keep a detection exactly when its largest score reaches the
   * threshold (a score equal to it is kept) and the first class holding that
   * score is the face class.
   */
  lemma PackagerKeepsIff(d: RawDetection, img: Image, threshold: real, faceClassId: int)
    requires |d.scores| > 0
    ensures PackagerVerdict(d, img, threshold, faceClassId).Kept?
        <==> d.scores[ArgMax(d.scores)] >= threshold && ArgMax(d.scores) == faceClassId
  {
  }

  /**
   * The live workers keep a detection exactly when its largest score is
   * strictly above 0.5 and the first class holding it is class 1.
   */
  lemma WorkerKeepsIff(d: RawDetection, img: Image)
    requires |d.scores| > 0
    ensures WorkerVerdict(d, img).Kept?
        <==> d.scores[ArgMax(d.scores)] > 0.5 && ArgMax(d.scores) == 1
  {
  }

  /**
   * The two keep rules, with the packagers' defaults (threshold 0.5, class 1),
   * disagree only on a face whose largest score is exactly 0.5: the packagers
   * keep it, the live workers drop it. Otherwise they agree, and both produce
   * the same clamped box.
   */
  lemma KeepRulesDifferAtThreshold(d: RawDetection, img: Image)
    ensures WorkerVerdict(d, img).Kept? ==> PackagerVerdict(d, img, 0.5, 1) == WorkerVerdict(d, img)
    ensures PackagerVerdict(d, img, 0.5, 1).Kept? && !WorkerVerdict(d, img).Kept?
        <==> |d.scores| > 0 && ArgMax(d.scores) == 1 && d.scores[1] == 0.5
  {
  }

  /**
   * A box that already fits is left as it is: the origin is the truncated
   * edge and the size is the detector's size.
   */
  lemma ClampKeepsFittingBox(d: RawDetection, img: Image)
    requires 0 <= Edge(d.centerX, d.width) && Edge(d.centerX, d.width) + d.width <= img.width
    requires 0 <= Edge(d.centerY, d.height) && Edge(d.centerY, d.height) + d.height <= img.height
    ensures ClampBox(d, img) == Box(Edge(d.centerX, d.width), Edge(d.centerY, d.height), d.width, d.height)
  {
  }

  /**
   * For a detection of non-negative size, the crop taken from the clamped
   * box has exactly the clamped width and height (none when they are not
   * positive), so "empty crop" means "clamped width or height is not positive".
   */
  lemma ClampedCropSize(d: RawDetection, img: Image)
    requires d.width >= 0 && d.height >= 0
    ensures var b := ClampBox(d, img);
      SliceLength(b.x, b.x + b.w, img.width) == Max(0, b.w) &&
      SliceLength(b.y, b.y + b.h, img.height) == Max(0, b.h)
    ensures var b := ClampBox(d, img); CropEmpty(b, img) <==> b.w <= 0 || b.h <= 0
  {
    var b := ClampBox(d, img);
    SideSliceLength(b.x, b.w, d.width, img.width);
    SideSliceLength(b.y, b.h, d.height, img.height);
  }

  /**
   * A negative detector width is not an empty crop: the clamp keeps it, and
   * numpy reads the negative slice end from the right, so `[30:-10]` selects
   * 60 columns and the packager keeps and writes the detection.
   */
  lemma NegativeWidthCropWraps()
    ensures var d := RawDetection(10, 50, -40, 20, [0.1, 0.9]);
      var img := Image(100, 100);
      ClampBox(d, img) == Box(30, 40, -40, 20) &&
      PackagerVerdict(d, img, 0.5, 1) == Kept(Box(30, 40, -40, 20), 0.9) &&
      SliceLength(30, 30 + -40, img.width) == 60 &&
      !CropEmpty(ClampBox(d, img), img)
  {
    var d := RawDetection(10, 50, -40, 20, [0.1, 0.9]);
    var img := Image(100, 100);
    assert Edge(10, -40) == 30 && Edge(50, 20) == 40;
    assert ArgMax(d.scores) == 1;
  }

  lemma SideSliceLength(x: int, w: int, raw: int, n: nat)
    requires 0 <= x && raw >= 0 && w == Min(raw, n - x)
    ensures SliceLength(x, x + w, n) == Max(0, w)
  {
  }
}

=== FILE: face_names.dfy ===
/**
 * Output file names of the packager: `f"face_{count:04d}.jpg"`, the decimal
 * count zero-padded to at least four digits, and the parse that reads the
 * count back from such a name.
 */
module FaceNames {
  import opened Wrappers

  predicate IsDigit(c: char) { '0' <= c <= '9' }

  predicate IsDigits(s: string) { forall i :: 0 <= i < |s| ==> IsDigit(s[i]) }

  function DigitChar(d: nat): (c: char)
    requires d < 10
    ensures IsDigit(c)
  {
    ('0' as int + d) as char
  }

  function DigitValue(c: char): (d: nat)
    requires IsDigit(c)
    ensures d < 10 && DigitChar(d) == c
  {
    c as int - '0' as int
  }

  /** The decimal form of `n`, without leading zeros (`"0"` for zero). */
  function Decimal(n: nat): (s: string)
    ensures 0 < |s| && IsDigits(s)
    ensures |s| == 1 || s[0] != '0'
  {
    if n < 10 then [DigitChar(n)] else Decimal(n / 10) + [DigitChar(n % 10)]
  }

  /** The value of a string of decimal digits; leading zeros add nothing. */
  function DecimalValue(s: string): nat
    requires IsDigits(s)
  {
    if |s| == 0 then 0 else 10 * DecimalValue(s[..|s| - 1]) + DigitValue(s[|s| - 1])
  }

  function Zeros(k: nat): (s: string)
    ensures |s| == k && IsDigits(s)
  {
    seq(k, _ => '0')
  }

  /** The `0N` format specification: pad on the left with zeros up to `width` characters. */
  function ZeroPad(s: string, width: nat): (r: string)
    ensures |r| == if |s| < width then width else |s|
    ensures r[|r| - |s|..] == s && forall i :: 0 <= i < |r| - |s| ==> r[i] == '0'
    ensures IsDigits(s) ==> IsDigits(r)
  {
    if |s| >= width then s else Zeros(width - |s|) + s
  }

  /** `f"face_{count:04d}.jpg"`. */
  function FaceName(count: nat): string
  {
    "face_" + ZeroPad(Decimal(count), 4) + ".jpg"
  }

  /** A generated name is `face_`, at least four decimal digits, and `.jpg`. */
  lemma FaceNameShape(count: nat)
    ensures var name := FaceName(count);
      |name| >= 13 && name[..5] == "face_" && name[|name| - 4..] == ".jpg" && IsDigits(name[5..|name| - 4])
  {
    var digits := ZeroPad(Decimal(count), 4);
    var name := FaceName(count);
    assert name[5..|name| - 4] == digits;
  }

  /** `10^k`. */
  function Pow10(k: nat): (p: nat)
    ensures p >= 1
  {
    if k == 0 then 1 else 10 * Pow10(k - 1)
  }

  /** A number below `10^k` has at most `k` decimal digits. */
  lemma {:induction false} DecimalLength(n: nat, k: nat)
    requires 1 <= k && n < Pow10(k)
    ensures |Decimal(n)| <= k
  {
    if n >= 10 {
      assert k >= 2;
      assert n / 10 < Pow10(k - 1);
      DecimalLength(n / 10, k - 1);
    }
  }

  /** Below 10000 the padding makes every name exactly `face_`, four digits and `.jpg`. */
  lemma FaceNameFourDigits(count: nat)
    requires count < 10000
    ensures |FaceName(count)| == 13
  {
    DecimalLength(count, 4);
  }

  /** The seventh file is `face_0007.jpg`. */
  lemma FaceNameSeven()
    ensures FaceName(7) == "face_0007.jpg"
  {
    assert Decimal(7) == "7";
    assert ZeroPad("7", 4) == "0007";
  }

  /** The count a `face_NNNN.jpg` name was made from, or `None` for any other name. */
  function ParseFaceName(name: string): Option<nat>
  {
    if |name| >= 9 && name[..5] == "face_" && name[|name| - 4..] == ".jpg" && IsDigits(name[5..|name| - 4])
    then Some(DecimalValue(name[5..|name| - 4]))
    else None
  }

  lemma {:induction false} DecimalRoundTrip(n: nat)
    ensures DecimalValue(Decimal(n)) == n
  {
    if n >= 10 {
      DecimalRoundTrip(n / 10);
      var s := Decimal(n);
      assert s[..|s| - 1] == Decimal(n / 10);
    }
  }

  lemma {:induction false} LeadingZerosAddNothing(k: nat, s: string)
    requires IsDigits(s)
    ensures DecimalValue(Zeros(k) + s) == DecimalValue(s)
    decreases |s|, k
  {
    var t := Zeros(k) + s;
    if |s| == 0 {
      assert t == Zeros(k);
      if k > 0 {
        assert t[..|t| - 1] == Zeros(k - 1) + s;
        LeadingZerosAddNothing(k - 1, s);
      }
    } else {
      assert t[..|t| - 1] == Zeros(k) + s[..|s| - 1];
      LeadingZerosAddNothing(k, s[..|s| - 1]);
    }
  }

  /** Zero padding never changes the value of the digits. */
  lemma ZeroPadValue(n: nat)
    ensures DecimalValue(ZeroPad(Decimal(n), 4)) == n
  {
    DecimalRoundTrip(n);
    var s := Decimal(n);
    if |s| < 4 {
      LeadingZerosAddNothing(4 - |s|, s);
    }
  }

  /** Reading the count back from a generated name gives the count. */
  lemma FaceNameRoundTrip(count: nat)
    ensures ParseFaceName(FaceName(count)) == Some(count)
  {
    var digits := ZeroPad(Decimal(count), 4);
    var name := FaceName(count);
    FaceNameShape(count);
    assert name[5..|name| - 4] == digits;
    ZeroPadValue(count);
  }

  /** Different counts give different file names. */
  lemma FaceNameInjective(a: nat, b: nat)
    ensures FaceName(a) == FaceName(b) ==> a == b
  {
    FaceNameRoundTrip(a);
    FaceNameRoundTrip(b);
  }
}

=== FILE: packager.dfy ===
/**
 * The offline face packager, `FacePackager.run` (targetter.py, duplicated in
 * target_packager.py): for every image file of the input directory, decode
 * the detector's output with the packager keep rule, optionally narrow the
 * boxes with non-maximum suppression, and write the non-empty crops under
 * `face_{count:04d}.jpg` with one counter for the whole directory.
 *
 * The directory listing, `cv2.imread` and the detector's forward pass are
 * given as a sequence of directory entries; `cv2.dnn.NMSBoxes` is an opaque
 * function parameter; every `cv2.imwrite` is recorded in the returned log of
 * written files. The packager's fields never change after construction, so
 * they are a value (Config) rather than an object.
 */
module Packager {
  import opened Wrappers
  import opened Detection
  import opened FaceNames

  datatype Config = Config(inputDir: string, outputDir: string, confidenceThreshold: real, faceClassId: int, nmsMode: bool)

  /** `FacePackager(...)` as declared in targetter.py: NMS on unless asked otherwise. */
  function TargetterPackager(inputDir: string, outputDir: string, confidenceThreshold: real := 0.5,
                             faceClassId: int := 1, nmsMode: bool := true): Config
  {
    Config(inputDir, outputDir, confidenceThreshold, faceClassId, nmsMode)
  }

  /** `FacePackager(...)` as declared in target_packager.py: NMS off unless asked otherwise. */
  function StandalonePackager(inputDir: string, outputDir: string, confidenceThreshold: real := 0.5,
                              faceClassId: int := 1, nmsMode: bool := false): Config
  {
    Config(inputDir, outputDir, confidenceThreshold, faceClassId, nmsMode)
  }

  /** One file of the input directory: its name, what `cv2.imread` returned, and the detector's output layers for it. */
  datatype DirEntry = DirEntry(name: string, image: Option<Image>, outputs: seq<seq<RawDetection>>)

  /** A kept detection: an entry of `boxes` and the entry of `confidences` at the same position. */
  datatype Candidate = Candidate(box: Box, confidence: real)

  /** The exceptions that end a run: numpy's argmax of an empty score tail, and indexing past a sequence. */
  datatype Failure = ValueError | IndexError

  /** An entry of the `NMSBoxes` result: an index, or a container whose first element is the index. */
  datatype NmsIndex = Index(i: int) | Wrapped(items: seq<int>)

  /** `cv2.dnn.NMSBoxes(boxes, confidences, score_threshold, nms_threshold)`, whose internals are not modelled. */
  type Nms = (seq<Box>, seq<real>, real, real) -> seq<NmsIndex>

  const NmsIouThreshold: real := 0.3

  /**
   * One `cv2.imwrite`: the counter value it was written under (the file is
   * `FaceName(number)` in the output directory), the source file, and the
   * crop (a box of that image).
   */
  datatype Written = Written(number: nat, source: string, image: Image, box: Box)

  /** The boxes NMS selected, in returned order, up to the first entry that raised. */
  datatype Picked = Picked(boxes: seq<Box>, failure: Option<Failure>)

  /** The files written so far and the exception that ended the run, if any. */
  datatype RunState = RunState(log: seq<Written>, failure: Option<Failure>)

  // File-name filter

  function LowerChar(c: char): char
  {
    if 'A' <= c <= 'Z' then (c as int + 32) as char else c
  }

  /** `str.lower()` on ASCII letters: no upper-case letter is left, and nothing else changes. */
  function Lower(s: string): (r: string)
    ensures |r| == |s|
    ensures forall i :: 0 <= i < |r| ==> !('A' <= r[i] <= 'Z')
    ensures forall i :: 0 <= i < |r| && !('A' <= s[i] <= 'Z') ==> r[i] == s[i]
    ensures forall i :: 0 <= i < |r| && 'A' <= s[i] <= 'Z' ==> r[i] == (s[i] as int + 32) as char
  {
    seq(|s|, i requires 0 <= i < |s| => LowerChar(s[i]))
  }

  predicate EndsWith(s: string, suffix: string)
  {
    |suffix| <= |s| && s[|s| - |suffix|..] == suffix
  }

  /** `any(filename.lower().endswith(ext) for ext in {".jpg", ".jpeg", ".png", ".bmp"})`. */
  predicate HasImageExtension(name: string)
  {
    var lower := Lower(name);
    EndsWith(lower, ".jpg") || EndsWith(lower, ".jpeg") || EndsWith(lower, ".png") || EndsWith(lower, ".bmp")
  }

  /** The filter ignores case: a name passes exactly when its lower-case form does. */
  lemma ImageExtensionIgnoresCase(name: string)
    ensures HasImageExtension(Lower(name)) <==> HasImageExtension(name)
  {
    assert Lower(Lower(name)) == Lower(name);
  }

  /** The packager's own output names pass the filter, so a run over its output directory reads them back. */
  lemma FaceNameIsImage(count: nat)
    ensures HasImageExtension(FaceName(count))
  {
    FaceNameEndsJpg(count);
    LowerKeepsSuffix(FaceName(count), ".jpg");
  }

  lemma FaceNameEndsJpg(count: nat)
    ensures EndsWith(FaceName(count), ".jpg")
  {
    var digits := ZeroPad(Decimal(count), 4);
    var name := FaceName(count);
    assert name == ("face_" + digits) + ".jpg";
  }

  /** Lower-casing keeps a suffix that holds no upper-case letter. */
  lemma LowerKeepsSuffix(s: string, suffix: string)
    requires EndsWith(s, suffix) && forall i :: 0 <= i < |suffix| ==> !('A' <= suffix[i] <= 'Z')
    ensures EndsWith(Lower(s), suffix)
  {
    var n := |s| - |suffix|;
    var lower := Lower(s);
    forall i | n <= i < |s| ensures lower[i] == s[i] {
      assert s[i] == suffix[i - n];
    }
    assert lower[n..] == s[n..];
  }

  // Decoding one image

  /**
   * The kept detections of one image, in detection order, or `None` when
   * some detection has no class scores (numpy raises before any file of
   * this image is written).
   */
  function Decoded(ds: seq<RawDetection>, img: Image, cfg: Config): (r: Option<seq<Candidate>>)
    ensures r.Some? ==> |r.value| <= |ds|
  {
    if |ds| == 0 then Some([])
    else
      var prev := Decoded(ds[..|ds| - 1], img, cfg);
      if prev.None? then None else DecodeNext(prev.value, ds[|ds| - 1], img, cfg)
  }

  /** Decoding fails exactly when some detection has no class scores. */
  lemma {:induction false} DecodedFailsIff(ds: seq<RawDetection>, img: Image, cfg: Config)
    ensures Decoded(ds, img, cfg).None? <==> exists k :: 0 <= k < |ds| && |ds[k].scores| == 0
  {
    if |ds| > 0 {
      var init := ds[..|ds| - 1];
      DecodedFailsIff(init, img, cfg);
      if Decoded(init, img, cfg).None? {
        var k :| 0 <= k < |init| && |init[k].scores| == 0;
        assert ds[k] == init[k];
      } else if |ds[|ds| - 1].scores| != 0 {
        forall k | 0 <= k < |ds| ensures |ds[k].scores| != 0 {
          if k < |init| {
            assert ds[k] == init[k];
          }
        }
      }
    }
  }

  /** Every candidate meets the confidence threshold and its box lies inside the image. */
  predicate CandidatesKept(cands: seq<Candidate>, img: Image, cfg: Config)
  {
    forall i :: 0 <= i < |cands| ==> cands[i].confidence >= cfg.confidenceThreshold && BoxInside(cands[i].box, img)
  }

  lemma {:induction false} DecodedKept(ds: seq<RawDetection>, img: Image, cfg: Config)
    requires Decoded(ds, img, cfg).Some?
    ensures CandidatesKept(Decoded(ds, img, cfg).value, img, cfg)
  {
    if |ds| > 0 {
      DecodedKept(ds[..|ds| - 1], img, cfg);
    }
  }

  /** The effect of one more detection on the candidates kept so far. */
  function DecodeNext(cands: seq<Candidate>, d: RawDetection, img: Image, cfg: Config): Option<seq<Candidate>>
  {
    match PackagerVerdict(d, img, cfg.confidenceThreshold, cfg.faceClassId)
    case Malformed => None
    case Dropped => Some(cands)
    case Kept(b, c) => Some(cands + [Candidate(b, c)])
  }

  /** The positions of the detections the packager rule keeps. */
  function KeptIndices(ds: seq<RawDetection>, img: Image, cfg: Config): (idx: seq<nat>)
    ensures forall i :: 0 <= i < |idx| ==> idx[i] < |ds|
  {
    if |ds| == 0 then []
    else
      var prev := KeptIndices(ds[..|ds| - 1], img, cfg);
      if PackagerVerdict(ds[|ds| - 1], img, cfg.confidenceThreshold, cfg.faceClassId).Kept?
      then prev + [|ds| - 1] else prev
  }

  /** Every entry of `idx` is the position of a detection of `ds` that the packager rule keeps. */
  predicate AllKept(idx: seq<nat>, ds: seq<RawDetection>, img: Image, cfg: Config)
  {
    forall i :: 0 <= i < |idx| ==>
      idx[i] < |ds| && PackagerVerdict(ds[idx[i]], img, cfg.confidenceThreshold, cfg.faceClassId).Kept?
  }

  /** `KeptIndices` lists, in increasing order, positions of detections the packager rule keeps. */
  lemma {:induction false} KeptIndicesSound(ds: seq<RawDetection>, img: Image, cfg: Config)
    ensures AllKept(KeptIndices(ds, img, cfg), ds, img, cfg)
    ensures Increasing(KeptIndices(ds, img, cfg))
  {
    if |ds| > 0 {
      var init := ds[..|ds| - 1];
      KeptIndicesSound(init, img, cfg);
      var prev := KeptIndices(init, img, cfg);
      var idx := KeptIndices(ds, img, cfg);
      forall i | 0 <= i < |prev|
        ensures PackagerVerdict(ds[prev[i]], img, cfg.confidenceThreshold, cfg.faceClassId).Kept?
      {
        assert ds[prev[i]] == init[prev[i]];
      }
      if PackagerVerdict(ds[|ds| - 1], img, cfg.confidenceThreshold, cfg.faceClassId).Kept? {
        assert idx == prev + [|ds| - 1];
      } else {
        assert idx == prev;
      }
    }
  }

  /** Every position of a detection the packager rule keeps is listed by `KeptIndices`. */
  lemma {:induction false} KeptIndicesComplete(ds: seq<RawDetection>, img: Image, cfg: Config, k: nat)
    requires k < |ds| && PackagerVerdict(ds[k], img, cfg.confidenceThreshold, cfg.faceClassId).Kept?
    ensures k in KeptIndices(ds, img, cfg)
  {
    var init := ds[..|ds| - 1];
    var prev := KeptIndices(init, img, cfg);
    if k < |init| {
      assert init[k] == ds[k];
      KeptIndicesComplete(init, img, cfg, k);
      assert KeptIndices(ds, img, cfg) == prev || KeptIndices(ds, img, cfg) == prev + [|ds| - 1];
    } else {
      assert KeptIndices(ds, img, cfg) == prev + [|ds| - 1];
    }
  }

  function Boxes(cands: seq<Candidate>): (r: seq<Box>)
    ensures |r| == |cands| && forall i :: 0 <= i < |r| ==> r[i] == cands[i].box
  {
    seq(|cands|, i requires 0 <= i < |cands| => cands[i].box)
  }

  function Confidences(cands: seq<Candidate>): (r: seq<real>)
    ensures |r| == |cands| && forall i :: 0 <= i < |r| ==> r[i] == cands[i].confidence
  {
    seq(|cands|, i requires 0 <= i < |cands| => cands[i].confidence)
  }

  lemma CandidatesGrow(cands: seq<Candidate>, c: Candidate)
    ensures Boxes(cands + [c]) == Boxes(cands) + [c.box]
    ensures Confidences(cands + [c]) == Confidences(cands) + [c.confidence]
  {
  }

  /**
   * `boxes` and `confidences` are built from exactly the kept detections, in
   * detection order: entry i of both comes from the i-th kept detection.
   */
  lemma {:induction false} DecodedFollowsDetections(ds: seq<RawDetection>, img: Image, cfg: Config)
    requires Decoded(ds, img, cfg).Some?
    ensures Follows(Decoded(ds, img, cfg).value, KeptIndices(ds, img, cfg), ds, img, cfg)
  {
    if |ds| > 0 {
      var init, last := ds[..|ds| - 1], ds[|ds| - 1];
      DecodedFollowsDetections(init, img, cfg);
      var prev, idx := Decoded(init, img, cfg).value, KeptIndices(init, img, cfg);
      forall i | 0 <= i < |idx| ensures ds[idx[i]] == init[idx[i]] { }
      match PackagerVerdict(last, img, cfg.confidenceThreshold, cfg.faceClassId) {
        case Dropped =>
          assert Decoded(ds, img, cfg).value == prev && KeptIndices(ds, img, cfg) == idx;
        case Kept(b, c) =>
          assert Decoded(ds, img, cfg).value == prev + [Candidate(b, c)];
          assert KeptIndices(ds, img, cfg) == idx + [|ds| - 1];
      }
    }
  }

  /**
   * Candidate i was decoded from the detection at position `idx[i]`, for
   * every i.
   */
  predicate Follows(cands: seq<Candidate>, idx: seq<nat>, ds: seq<RawDetection>, img: Image, cfg: Config)
  {
    |cands| == |idx| && forall i :: 0 <= i < |cands| ==>
      idx[i] < |ds| &&
      PackagerVerdict(ds[idx[i]], img, cfg.confidenceThreshold, cfg.faceClassId) == Kept(cands[i].box, cands[i].confidence)
  }

  /** Once a detection without scores is met, the image's decode has failed whatever follows. */
  lemma {:induction false} DecodedStops(xs: seq<RawDetection>, ys: seq<RawDetection>, img: Image, cfg: Config)
    requires Decoded(xs, img, cfg).None?
    ensures Decoded(xs + ys, img, cfg).None?
    decreases |ys|
  {
    if |ys| == 0 {
      assert xs + ys == xs;
    } else {
      DecodedStops(xs, ys[..|ys| - 1], img, cfg);
      assert (xs + ys)[..|xs + ys| - 1] == xs + ys[..|ys| - 1];
    }
  }

  /** The effect of detection k of a layer, after the detections `before` it and the first k of the layer. */
  lemma DecodedStep(before: seq<RawDetection>, output: seq<RawDetection>, k: nat, img: Image, cfg: Config)
    requires k < |output| && Decoded(before + output[..k], img, cfg).Some?
    ensures PackagerVerdict(output[k], img, cfg.confidenceThreshold, cfg.faceClassId).Malformed? ==>
      Decoded(before + output, img, cfg).None?
    ensures PackagerVerdict(output[k], img, cfg.confidenceThreshold, cfg.faceClassId).Dropped? ==>
      Decoded(before + output[..k + 1], img, cfg) == Decoded(before + output[..k], img, cfg)
    ensures PackagerVerdict(output[k], img, cfg.confidenceThreshold, cfg.faceClassId).Kept? ==>
      Decoded(before + output[..k + 1], img, cfg)
      == Some(Decoded(before + output[..k], img, cfg).value + [Candidate(
        PackagerVerdict(output[k], img, cfg.confidenceThreshold, cfg.faceClassId).box,
        PackagerVerdict(output[k], img, cfg.confidenceThreshold, cfg.faceClassId).confidence)])
  {
    var done := before + output[..k + 1];
    var cands := Decoded(before + output[..k], img, cfg).value;
    DecodedNext(before, output, k, img, cfg);
    match PackagerVerdict(output[k], img, cfg.confidenceThreshold, cfg.faceClassId) {
      case Malformed =>
        assert Decoded(done, img, cfg).None?;
        assert before + output == done + output[k + 1..];
        DecodedStops(done, output[k + 1..], img, cfg);
      case Dropped =>
      case Kept(b, c) =>
    }
  }

  lemma DecodedNext(before: seq<RawDetection>, output: seq<RawDetection>, k: nat, img: Image, cfg: Config)
    requires k < |output| && Decoded(before + output[..k], img, cfg).Some?
    ensures Decoded(before + output[..k + 1], img, cfg)
      == DecodeNext(Decoded(before + output[..k], img, cfg).value, output[k], img, cfg)
  {
    var done := before + output[..k + 1];
    assert done[..|done| - 1] == before + output[..k];
    assert done[|done| - 1] == output[k];
  }

  /**
   * The nested loop over output layers and detections (lines 50-72):
   * `boxes` and `confidences` stay the same length and are the decoded
   * candidates; `ok` is false where numpy raises.
   */
  method DecodeDetections(outputs: seq<seq<RawDetection>>, img: Image, cfg: Config)
    returns (boxes: seq<Box>, confidences: seq<real>, ok: bool)
    ensures |boxes| == |confidences|
    ensures ok <==> Decoded(Flatten(outputs), img, cfg).Some?
    ensures ok ==> var cands := Decoded(Flatten(outputs), img, cfg).value;
      boxes == Boxes(cands) && confidences == Confidences(cands)
  {
    boxes, confidences := [], [];
    for o := 0 to |outputs|
      invariant Decoded(Flatten(outputs[..o]), img, cfg).Some?
      invariant var cands := Decoded(Flatten(outputs[..o]), img, cfg).value;
        boxes == Boxes(cands) && confidences == Confidences(cands)
    {
      FlattenStep(outputs, o);
      boxes, confidences, ok := DecodeLayer(Flatten(outputs[..o]), outputs[o], img, cfg, boxes, confidences);
      if !ok {
        ghost var done := outputs[..o + 1];
        assert outputs == done + outputs[o + 1..];
        FlattenAppend(done, outputs[o + 1..]);
        DecodedStops(Flatten(done), Flatten(outputs[o + 1..]), img, cfg);
        return;
      }
    }
    assert outputs[..|outputs|] == outputs;
    ok := true;
  }

  /**
   * The inner loop over the detections of one output layer, continuing the
   * candidates decoded from the detections `before` it.
   */
  method DecodeLayer(ghost before: seq<RawDetection>, output: seq<RawDetection>, img: Image, cfg: Config,
                     boxes0: seq<Box>, confidences0: seq<real>)
    returns (boxes: seq<Box>, confidences: seq<real>, ok: bool)
    requires Decoded(before, img, cfg).Some?
    requires boxes0 == Boxes(Decoded(before, img, cfg).value)
    requires confidences0 == Confidences(Decoded(before, img, cfg).value)
    ensures |boxes| == |confidences|
    ensures ok <==> Decoded(before + output, img, cfg).Some?
    ensures ok ==> var cands := Decoded(before + output, img, cfg).value;
      boxes == Boxes(cands) && confidences == Confidences(cands)
  {
    boxes, confidences := boxes0, confidences0;
    ghost var cands := Decoded(before, img, cfg).value;
    assert before + output[..0] == before;
    for k := 0 to |output|
      invariant Decoded(before + output[..k], img, cfg) == Some(cands)
      invariant boxes == Boxes(cands) && confidences == Confidences(cands)
    {
      var d := output[k];
      DecodedStep(before, output, k, img, cfg);
      match PackagerVerdict(d, img, cfg.confidenceThreshold, cfg.faceClassId) {
        case Malformed =>
          ok := false;
          return;
        case Dropped =>
        case Kept(box, confidence) =>
          CandidatesGrow(cands, Candidate(box, confidence));
          boxes := boxes + [box];
          confidences := confidences + [confidence];
          cands := cands + [Candidate(box, confidence)];
      }
    }
    assert output[..|output|] == output;
    ok := true;
  }

  // Selecting and writing the crops of one image

  /** `i = i[0] if isinstance(i, (list, tuple, np.ndarray)) else i`; `None` where `i[0]` raises. */
  function Unwrap(e: NmsIndex): Option<int>
  {
    match e
    case Index(i) => Some(i)
    case Wrapped(items) => if |items| > 0 then Some(items[0]) else None
  }

  /** Python's `s[i]`: negative indices count from the end; `None` where it raises `IndexError`. */
  function PyIndex<T>(s: seq<T>, i: int): Option<T>
  {
    if 0 <= i < |s| then Some(s[i])
    else if -|s| <= i < 0 then Some(s[|s| + i])
    else None
  }

  /** The box an `NMSBoxes` entry designates. */
  function Lookup(boxes: seq<Box>, e: NmsIndex): Option<Box>
  {
    match Unwrap(e)
    case None => None
    case Some(i) => PyIndex(boxes, i)
  }

  /** The boxes at the returned indices, in returned order, up to the first entry that raises. */
  function Resolve(boxes: seq<Box>, indices: seq<NmsIndex>): (p: Picked)
    ensures |p.boxes| <= |indices|
    ensures p.failure.Some? ==> p.failure.value == IndexError
  {
    if |indices| == 0 then Picked([], None)
    else
      var prev := Resolve(boxes, indices[..|indices| - 1]);
      if prev.failure.Some? then prev
      else
        match Lookup(boxes, indices[|indices| - 1])
        case None => Picked(prev.boxes, Some(IndexError))
        case Some(b) => Picked(prev.boxes + [b], None)
  }

  /**
   * When every entry returned by NMS designates a box, exactly the boxes at
   * the returned indices are picked, in the returned order.
   */
  lemma {:induction false} ResolveValid(boxes: seq<Box>, indices: seq<NmsIndex>)
    requires forall k :: 0 <= k < |indices| ==> Unwrap(indices[k]).Some? && 0 <= Unwrap(indices[k]).value < |boxes|
    ensures Resolve(boxes, indices).failure.None?
    ensures |Resolve(boxes, indices).boxes| == |indices|
    ensures forall k :: 0 <= k < |indices| ==> Resolve(boxes, indices).boxes[k] == boxes[Unwrap(indices[k]).value]
  {
    if |indices| > 0 {
      ResolveValid(boxes, indices[..|indices| - 1]);
    }
  }

  predicate AllInside(boxes: seq<Box>, img: Image)
  {
    forall j :: 0 <= j < |boxes| ==> BoxInside(boxes[j], img)
  }

  /** Every box picked lies inside the image when every box offered does. */
  lemma {:induction false} ResolveInside(boxes: seq<Box>, indices: seq<NmsIndex>, img: Image)
    requires AllInside(boxes, img)
    ensures AllInside(Resolve(boxes, indices).boxes, img)
  {
    if |indices| > 0 {
      var prev := Resolve(boxes, indices[..|indices| - 1]);
      ResolveInside(boxes, indices[..|indices| - 1], img);
      var e := indices[|indices| - 1];
      if prev.failure.Some? {
        assert Resolve(boxes, indices) == prev;
      } else if Lookup(boxes, e).None? {
        assert Resolve(boxes, indices) == Picked(prev.boxes, Some(IndexError));
      } else {
        var i := Unwrap(e).value;
        var b := if i >= 0 then boxes[i] else boxes[|boxes| + i];
        assert Lookup(boxes, e) == Some(b);
        assert Resolve(boxes, indices) == Picked(prev.boxes + [b], None);
      }
    }
  }

  lemma ResolveStep(boxes: seq<Box>, indices: seq<NmsIndex>, k: nat, box: Box)
    requires k < |indices| && Resolve(boxes, indices[..k]).failure.None? && Lookup(boxes, indices[k]) == Some(box)
    ensures Resolve(boxes, indices[..k + 1]) == Picked(Resolve(boxes, indices[..k]).boxes + [box], None)
  {
    assert indices[..k + 1][..k] == indices[..k];
  }

  /** An entry that designates no box ends the selection with `IndexError`. */
  lemma ResolveFails(boxes: seq<Box>, indices: seq<NmsIndex>, k: nat)
    requires k < |indices| && Resolve(boxes, indices[..k]).failure.None? && Lookup(boxes, indices[k]).None?
    ensures Resolve(boxes, indices) == Picked(Resolve(boxes, indices[..k]).boxes, Some(IndexError))
  {
    assert indices[..k + 1][..k] == indices[..k];
    ResolveStops(boxes, indices, k + 1);
  }

  lemma {:induction false} ResolveStops(boxes: seq<Box>, indices: seq<NmsIndex>, k: nat)
    requires k <= |indices| && Resolve(boxes, indices[..k]).failure.Some?
    ensures Resolve(boxes, indices) == Resolve(boxes, indices[..k])
    decreases |indices| - k
  {
    if k < |indices| {
      assert indices[..k + 1][..k] == indices[..k];
      ResolveStops(boxes, indices, k + 1);
    } else {
      assert indices[..k] == indices;
    }
  }

  /**
   * The files written for the boxes of one image, starting at `count`: every
   * box with a non-empty crop in turn, each under the next name.
   */
  function WriteCrops(source: string, img: Image, boxes: seq<Box>, count: nat): (log: seq<Written>)
    ensures |log| <= |boxes|
  {
    if |boxes| == 0 then []
    else
      var prev := WriteCrops(source, img, boxes[..|boxes| - 1], count);
      var b := boxes[|boxes| - 1];
      if CropEmpty(b, img) then prev else prev + [Written(count + |prev|, source, img, b)]
  }

  /** Entry k of `log` is a non-empty crop of `img` from `source`, written under counter value `count + k`. */
  predicate WrittenFrom(log: seq<Written>, source: string, img: Image, count: nat)
  {
    forall k :: 0 <= k < |log| ==>
      log[k].number == count + k && log[k].source == source && log[k].image == img && !CropEmpty(log[k].box, img)
  }

  /**
   * The k-th file written for an image is a non-empty crop of that image,
   * written under the k-th counter value from `count`.
   */
  lemma {:induction false} WriteCropsEntries(source: string, img: Image, boxes: seq<Box>, count: nat)
    ensures WrittenFrom(WriteCrops(source, img, boxes, count), source, img, count)
  {
    if |boxes| > 0 {
      var init, last := boxes[..|boxes| - 1], boxes[|boxes| - 1];
      WriteCropsEntries(source, img, init, count);
      WriteCropsStep(source, img, init, last, count);
      assert boxes == init + [last];
    }
  }

  /** Every box written lies inside the image when every box offered does. */
  lemma {:induction false} WriteCropsInside(source: string, img: Image, boxes: seq<Box>, count: nat)
    requires AllInside(boxes, img)
    ensures forall k :: 0 <= k < |WriteCrops(source, img, boxes, count)| ==>
      BoxInside(WriteCrops(source, img, boxes, count)[k].box, img)
  {
    if |boxes| > 0 {
      var init, last := boxes[..|boxes| - 1], boxes[|boxes| - 1];
      WriteCropsInside(source, img, init, count);
      WriteCropsStep(source, img, init, last, count);
      assert boxes == init + [last];
    }
  }

  lemma WriteCropsStep(source: string, img: Image, boxes: seq<Box>, b: Box, count: nat)
    ensures CropEmpty(b, img) ==> WriteCrops(source, img, boxes + [b], count) == WriteCrops(source, img, boxes, count)
    ensures !CropEmpty(b, img) ==>
      WriteCrops(source, img, boxes + [b], count)
      == WriteCrops(source, img, boxes, count) + [Written(count + |WriteCrops(source, img, boxes, count)|, source, img, b)]
  {
    var all := boxes + [b];
    assert all[..|all| - 1] == boxes;
    assert all[|all| - 1] == b;
  }

  /** When no crop is empty, every box is written, in list order, one name per box. */
  lemma {:induction false} WriteCropsEveryBox(source: string, img: Image, boxes: seq<Box>, count: nat)
    requires forall k :: 0 <= k < |boxes| ==> !CropEmpty(boxes[k], img)
    ensures |WriteCrops(source, img, boxes, count)| == |boxes|
    ensures forall k :: 0 <= k < |boxes| ==> WriteCrops(source, img, boxes, count)[k].box == boxes[k]
  {
    if |boxes| > 0 {
      var init := boxes[..|boxes| - 1];
      WriteCropsEveryBox(source, img, init, count);
      var prev := WriteCrops(source, img, init, count);
      var last := boxes[|boxes| - 1];
      assert !CropEmpty(last, img);
      assert WriteCrops(source, img, boxes, count) == prev + [Written(count + |prev|, source, img, last)];
    }
  }

  /** When every crop is empty, nothing is written and the count does not move. */
  lemma {:induction false} WriteCropsSkipsEmpty(source: string, img: Image, boxes: seq<Box>, count: nat)
    requires forall k :: 0 <= k < |boxes| ==> CropEmpty(boxes[k], img)
    ensures WriteCrops(source, img, boxes, count) == []
  {
    if |boxes| > 0 {
      var init := boxes[..|boxes| - 1];
      WriteCropsSkipsEmpty(source, img, init, count);
      assert CropEmpty(boxes[|boxes| - 1], img);
    }
  }

  /** The boxes whose crop is not empty, in list order. */
  function NonEmptyBoxes(boxes: seq<Box>, img: Image): (r: seq<Box>)
    ensures |r| <= |boxes|
  {
    if |boxes| == 0 then []
    else
      var prev := NonEmptyBoxes(boxes[..|boxes| - 1], img);
      if CropEmpty(boxes[|boxes| - 1], img) then prev else prev + [boxes[|boxes| - 1]]
  }

  /** A box is among `NonEmptyBoxes` exactly when it is offered and its crop is not empty. */
  lemma {:induction false} NonEmptyBoxesMembers(boxes: seq<Box>, img: Image, b: Box)
    ensures b in NonEmptyBoxes(boxes, img) <==> b in boxes && !CropEmpty(b, img)
  {
    if |boxes| > 0 {
      var init, last := boxes[..|boxes| - 1], boxes[|boxes| - 1];
      NonEmptyBoxesMembers(init, img, b);
      assert boxes == init + [last];
    }
  }

  /**
   * The files written for a list of boxes are exactly its non-empty crops,
   * in list order: an empty crop is skipped and writing goes on with the
   * next box.
   */
  lemma {:induction false} WriteCropsNonEmpty(source: string, img: Image, boxes: seq<Box>, count: nat)
    ensures |WriteCrops(source, img, boxes, count)| == |NonEmptyBoxes(boxes, img)|
    ensures forall k :: 0 <= k < |NonEmptyBoxes(boxes, img)| ==>
      WriteCrops(source, img, boxes, count)[k].box == NonEmptyBoxes(boxes, img)[k]
  {
    if |boxes| > 0 {
      var init, last := boxes[..|boxes| - 1], boxes[|boxes| - 1];
      WriteCropsNonEmpty(source, img, init, count);
      WriteCropsStep(source, img, init, last, count);
      assert boxes == init + [last];
    }
  }

  /** The `nms_mode` false branch (lines 74-83): every box in list order. */
  method WriteAll(source: string, img: Image, boxes: seq<Box>, count0: nat) returns (written: seq<Written>, count: nat)
    ensures written == WriteCrops(source, img, boxes, count0)
    ensures count == count0 + |written|
  {
    written, count := [], count0;
    for k := 0 to |boxes|
      invariant written == WriteCrops(source, img, boxes[..k], count0)
      invariant count == count0 + |written|
    {
      var box := boxes[k];
      WriteCropsStep(source, img, boxes[..k], box, count0);
      assert boxes[..k + 1] == boxes[..k] + [box];
      if CropEmpty(box, img) {
        continue;
      }
      written := written + [Written(count, source, img, box)];
      count := count + 1;
    }
    assert boxes[..|boxes|] == boxes;
  }

  /**
   * Unwrapping one `NMSBoxes` entry and indexing `boxes` with it (lines
   * 87-88); `None` where either raises `IndexError`.
   */
  method LookupEntry(boxes: seq<Box>, entry: NmsIndex) returns (box: Option<Box>)
    ensures box == Lookup(boxes, entry)
  {
    var i: int;
    match entry {
      case Index(j) =>
        i := j;
      case Wrapped(items) =>
        if |items| == 0 {
          return None;
        }
        i := items[0];
    }
    if !(-|boxes| <= i < |boxes|) {
      return None;
    }
    box := Some(if i >= 0 then boxes[i] else boxes[|boxes| + i]);
  }

  /** The `nms_mode` true branch (lines 85-95): the boxes at the indices NMS returned. */
  method WriteSelected(source: string, img: Image, boxes: seq<Box>, indices: seq<NmsIndex>, count0: nat)
    returns (written: seq<Written>, count: nat, failed: bool)
    ensures written == WriteCrops(source, img, Resolve(boxes, indices).boxes, count0)
    ensures failed <==> Resolve(boxes, indices).failure.Some?
    ensures count == count0 + |written|
  {
    written, count := [], count0;
    ghost var picked: seq<Box> := [];
    for k := 0 to |indices|
      invariant Resolve(boxes, indices[..k]) == Picked(picked, None)
      invariant written == WriteCrops(source, img, picked, count0)
      invariant count == count0 + |written|
    {
      var stop;
      written, count, stop, picked := WriteEntry(source, img, boxes, indices, k, count0, written, count, picked);
      if stop {
        failed := true;
        return;
      }
    }
    assert indices[..|indices|] == indices;
    failed := false;
  }

  /** One turn of the loop of `WriteSelected`, for entry k of the `NMSBoxes` result. */
  method WriteEntry(source: string, img: Image, boxes: seq<Box>, indices: seq<NmsIndex>, k: nat, count0: nat,
                    written0: seq<Written>, countBefore: nat, ghost picked0: seq<Box>)
    returns (written: seq<Written>, count: nat, stop: bool, ghost picked: seq<Box>)
    requires k < |indices| && Resolve(boxes, indices[..k]) == Picked(picked0, None)
    requires written0 == WriteCrops(source, img, picked0, count0) && countBefore == count0 + |written0|
    ensures count == count0 + |written|
    ensures stop ==> Resolve(boxes, indices) == Picked(picked0, Some(IndexError)) && written == written0
    ensures !stop ==> Resolve(boxes, indices[..k + 1]) == Picked(picked, None)
    ensures !stop ==> written == WriteCrops(source, img, picked, count0)
  {
    written, count, picked := written0, countBefore, picked0;
    var found := LookupEntry(boxes, indices[k]);
    if found.None? {
      ResolveFails(boxes, indices, k);
      stop := true;
      return;
    }
    stop := false;
    var box := found.value;
    ResolveStep(boxes, indices, k, box);
    WriteCropsStep(source, img, picked0, box, count0);
    picked := picked0 + [box];
    if CropEmpty(box, img) {
      return;
    }
    written := written + [Written(count, source, img, box)];
    count := count + 1;
  }

  // The whole run

  /** The effect of one directory entry on a run that has not failed. */
  function ProcessFile(s: RunState, e: DirEntry, cfg: Config, nms: Nms): RunState
  {
    if !HasImageExtension(e.name) || e.image.None? then s
    else
      var img := e.image.value;
      match Decoded(Flatten(e.outputs), img, cfg)
      case None => RunState(s.log, Some(ValueError))
      case Some(cands) =>
        var boxes := Boxes(cands);
        var picked :=
          if cfg.nmsMode then Resolve(boxes, nms(boxes, Confidences(cands), cfg.confidenceThreshold, NmsIouThreshold))
          else Picked(boxes, None);
        RunState(s.log + WriteCrops(e.name, img, picked.boxes, |s.log|), picked.failure)
  }

  /** The run over the directory listing `files`, in listing order; an exception ends it. */
  function PackRun(files: seq<DirEntry>, cfg: Config, nms: Nms): RunState
  {
    if |files| == 0 then RunState([], None)
    else
      var s := PackRun(files[..|files| - 1], cfg, nms);
      if s.failure.Some? then s else ProcessFile(s, files[|files| - 1], cfg, nms)
  }

  /**
   * `FacePackager.run`. `written` lists the `cv2.imwrite` calls in order;
   * `count` is the running counter, started at 0 once for the whole run;
   * `failure` is the exception that ended the run, if any.
   */
  method Run(cfg: Config, files: seq<DirEntry>, nms: Nms) returns (written: seq<Written>, count: nat, failure: Option<Failure>)
    ensures PackRun(files, cfg, nms) == RunState(written, failure)
    ensures count == |written|
  {
    count := 0;
    written := [];
    failure := None;
    for i := 0 to |files|
      invariant PackRun(files[..i], cfg, nms) == RunState(written, None)
      invariant count == |written|
      invariant failure.None?
    {
      PackRunStep(files, i, cfg, nms);
      var more: seq<Written>;
      more, failure := PackFile(RunState(written, None), files[i], cfg, nms);
      written, count := written + more, count + |more|;
      if failure.Some? {
        PackRunStops(files, i + 1, cfg, nms);
        return;
      }
    }
    assert files[..|files|] == files;
  }

  lemma PackRunStep(files: seq<DirEntry>, i: nat, cfg: Config, nms: Nms)
    requires i < |files| && PackRun(files[..i], cfg, nms).failure.None?
    ensures PackRun(files[..i + 1], cfg, nms) == ProcessFile(PackRun(files[..i], cfg, nms), files[i], cfg, nms)
  {
    assert files[..i + 1][..i] == files[..i];
  }

  /** The body of the loop over the directory listing (lines 36-95), for one file. */
  method PackFile(s: RunState, entry: DirEntry, cfg: Config, nms: Nms) returns (more: seq<Written>, failure: Option<Failure>)
    requires s.failure.None?
    ensures ProcessFile(s, entry, cfg, nms) == RunState(s.log + more, failure)
  {
    more, failure := [], None;
    if !HasImageExtension(entry.name) {
      assert s.log + more == s.log;
      return;
    }
    if entry.image.None? {
      assert s.log + more == s.log;
      return;
    }
    var img := entry.image.value;
    var boxes, confidences, ok := DecodeDetections(entry.outputs, img, cfg);
    if !ok {
      failure := Some(ValueError);
      assert s.log + more == s.log;
      return;
    }
    ghost var cands := Decoded(Flatten(entry.outputs), img, cfg).value;
    assert boxes == Boxes(cands) && confidences == Confidences(cands);
    if !cfg.nmsMode {
      var next;
      more, next := WriteAll(entry.name, img, boxes, |s.log|);
      assert ProcessFile(s, entry, cfg, nms) == RunState(s.log + WriteCrops(entry.name, img, boxes, |s.log|), None);
    } else {
      var indices := nms(boxes, confidences, cfg.confidenceThreshold, NmsIouThreshold);
      var next, failed;
      more, next, failed := WriteSelected(entry.name, img, boxes, indices, |s.log|);
      if failed {
        failure := Some(IndexError);
      }
      ghost var picked := Resolve(boxes, indices);
      assert ProcessFile(s, entry, cfg, nms) == RunState(s.log + WriteCrops(entry.name, img, picked.boxes, |s.log|), picked.failure);
    }
  }

  // Properties of a run

  /** After an exception, later files are not processed. */
  lemma {:induction false} PackRunStops(files: seq<DirEntry>, k: nat, cfg: Config, nms: Nms)
    requires k <= |files| && PackRun(files[..k], cfg, nms).failure.Some?
    ensures PackRun(files, cfg, nms) == PackRun(files[..k], cfg, nms)
    decreases |files| - k
  {
    if k < |files| {
      assert files[..k + 1][..k] == files[..k];
      PackRunStops(files, k + 1, cfg, nms);
    } else {
      assert files[..k] == files;
    }
  }

  /** Entry i of the log was written under counter value i. */
  predicate Numbered(log: seq<Written>)
  {
    forall i :: 0 <= i < |log| ==> log[i].number == i
  }

  /**
   * The counter starts at 0 once per run and is never reset: the i-th file
   * written in a run is named `face_{i:04d}.jpg`.
   */
  lemma {:induction false} PackRunNames(files: seq<DirEntry>, cfg: Config, nms: Nms)
    ensures Numbered(PackRun(files, cfg, nms).log)
  {
    if |files| > 0 {
      var s := PackRun(files[..|files| - 1], cfg, nms);
      PackRunNames(files[..|files| - 1], cfg, nms);
      if s.failure.None? {
        ProcessFileNumbers(s, files[|files| - 1], cfg, nms);
      }
    }
  }

  /** One file's writes continue the numbering where the run left it. */
  lemma ProcessFileNumbers(s: RunState, e: DirEntry, cfg: Config, nms: Nms)
    requires Numbered(s.log)
    ensures Numbered(ProcessFile(s, e, cfg, nms).log)
  {
    if HasImageExtension(e.name) && e.image.Some? {
      var img := e.image.value;
      var r := Decoded(Flatten(e.outputs), img, cfg);
      if r.Some? {
        var boxes := Boxes(r.value);
        var picked :=
          if cfg.nmsMode then Resolve(boxes, nms(boxes, Confidences(r.value), cfg.confidenceThreshold, NmsIouThreshold))
          else Picked(boxes, None);
        var more := WriteCrops(e.name, img, picked.boxes, |s.log|);
        WriteCropsEntries(e.name, img, picked.boxes, |s.log|);
        assert ProcessFile(s, e, cfg, nms).log == s.log + more;
      }
    }
  }

  /** No two files written in one run get the same name, so none overwrites another. */
  lemma PackRunNamesDistinct(files: seq<DirEntry>, cfg: Config, nms: Nms)
    ensures var log := PackRun(files, cfg, nms).log;
      forall i, j :: 0 <= i < j < |log| ==> FaceName(log[i].number) != FaceName(log[j].number)
  {
    PackRunNames(files, cfg, nms);
    var log := PackRun(files, cfg, nms).log;
    forall i, j | 0 <= i < j < |log| ensures FaceName(log[i].number) != FaceName(log[j].number) {
      FaceNameInjective(i, j);
    }
  }

  /**
   * Processing more files only adds writes: what was written for the first
   * `k` files is a prefix of what the whole run writes.
   */
  lemma {:induction false} PackRunCumulative(files: seq<DirEntry>, k: nat, cfg: Config, nms: Nms)
    requires k <= |files|
    ensures var before := PackRun(files[..k], cfg, nms).log; var after := PackRun(files, cfg, nms).log;
      |before| <= |after| && after[..|before|] == before
    decreases |files|
  {
    if k == |files| {
      assert files[..k] == files;
    } else {
      var init := files[..|files| - 1];
      assert init[..k] == files[..k];
      PackRunCumulative(init, k, cfg, nms);
    }
  }

  /** Every entry of the log is a non-empty crop of a box lying inside its image. */
  predicate LogInside(log: seq<Written>)
  {
    forall i :: 0 <= i < |log| ==> BoxInside(log[i].box, log[i].image) && !CropEmpty(log[i].box, log[i].image)
  }

  /**
   * Every file written is a non-empty crop of a box lying inside its image.
   */
  lemma {:induction false} PackRunBoxesInside(files: seq<DirEntry>, cfg: Config, nms: Nms)
    ensures LogInside(PackRun(files, cfg, nms).log)
  {
    if |files| > 0 {
      var s := PackRun(files[..|files| - 1], cfg, nms);
      PackRunBoxesInside(files[..|files| - 1], cfg, nms);
      if s.failure.None? {
        ProcessFileInside(s, files[|files| - 1], cfg, nms);
      }
    }
  }

  lemma ProcessFileInside(s: RunState, e: DirEntry, cfg: Config, nms: Nms)
    requires LogInside(s.log)
    ensures LogInside(ProcessFile(s, e, cfg, nms).log)
  {
    if HasImageExtension(e.name) && e.image.Some? {
      var img := e.image.value;
      var r := Decoded(Flatten(e.outputs), img, cfg);
      if r.Some? {
        var boxes := Boxes(r.value);
        DecodedKept(Flatten(e.outputs), img, cfg);
        assert AllInside(boxes, img);
        var picked :=
          if cfg.nmsMode then Resolve(boxes, nms(boxes, Confidences(r.value), cfg.confidenceThreshold, NmsIouThreshold))
          else Picked(boxes, None);
        if cfg.nmsMode {
          ResolveInside(boxes, nms(boxes, Confidences(r.value), cfg.confidenceThreshold, NmsIouThreshold), img);
        }
        var more := WriteCrops(e.name, img, picked.boxes, |s.log|);
        WriteCropsInside(e.name, img, picked.boxes, |s.log|);
        WriteCropsEntries(e.name, img, picked.boxes, |s.log|);
        assert ProcessFile(s, e, cfg, nms).log == s.log + more;
      }
    }
  }

  /** A file without an image extension, or one `cv2.imread` cannot read, writes nothing and leaves the count as it was. */
  lemma SkippedFileNoEffect(files: seq<DirEntry>, e: DirEntry, cfg: Config, nms: Nms)
    requires !HasImageExtension(e.name) || e.image.None?
    ensures PackRun(files + [e], cfg, nms) == PackRun(files, cfg, nms)
  {
    assert (files + [e])[..|files|] == files;
  }

  /**
   * With NMS off, each readable image contributes its non-empty crops in
   * decode order; when none of them is empty, every kept detection is
   * written and the count rises by exactly the number of kept detections.
   */
  lemma NoNmsWritesEveryBox(s: RunState, e: DirEntry, cfg: Config, nms: Nms)
    requires !cfg.nmsMode && HasImageExtension(e.name) && e.image.Some?
    requires Decoded(Flatten(e.outputs), e.image.value, cfg).Some?
    requires var cands := Decoded(Flatten(e.outputs), e.image.value, cfg).value;
      forall k :: 0 <= k < |cands| ==> !CropEmpty(cands[k].box, e.image.value)
    ensures var cands := Decoded(Flatten(e.outputs), e.image.value, cfg).value;
      var t := ProcessFile(s, e, cfg, nms);
      t.failure.None? && |t.log| == |s.log| + |cands| && t.log[..|s.log|] == s.log &&
      forall k :: 0 <= k < |cands| ==> t.log[|s.log| + k].box == cands[k].box
  {
    var img := e.image.value;
    var cands := Decoded(Flatten(e.outputs), img, cfg).value;
    WriteCropsEveryBox(e.name, img, Boxes(cands), |s.log|);
  }

  /**
   * With NMS on and every returned entry designating a box, exactly the
   * boxes at the returned indices are written, in the returned order, minus
   * those whose crop is empty.
   */
  lemma NmsWritesSelected(s: RunState, e: DirEntry, cfg: Config, nms: Nms)
    requires cfg.nmsMode && HasImageExtension(e.name) && e.image.Some?
    requires Decoded(Flatten(e.outputs), e.image.value, cfg).Some?
    requires var cands := Decoded(Flatten(e.outputs), e.image.value, cfg).value;
      var indices := nms(Boxes(cands), Confidences(cands), cfg.confidenceThreshold, NmsIouThreshold);
      forall k :: 0 <= k < |indices| ==> Unwrap(indices[k]).Some? && 0 <= Unwrap(indices[k]).value < |cands|
    ensures var cands := Decoded(Flatten(e.outputs), e.image.value, cfg).value;
      var indices := nms(Boxes(cands), Confidences(cands), cfg.confidenceThreshold, NmsIouThreshold);
      var selected := seq(|indices|, k requires 0 <= k < |indices| => cands[Unwrap(indices[k]).value].box);
      ProcessFile(s, e, cfg, nms) == RunState(s.log + WriteCrops(e.name, e.image.value, selected, |s.log|), None)
  {
    var img := e.image.value;
    var cands := Decoded(Flatten(e.outputs), img, cfg).value;
    var boxes := Boxes(cands);
    var indices := nms(boxes, Confidences(cands), cfg.confidenceThreshold, NmsIouThreshold);
    ResolveValid(boxes, indices);
    var selected := seq(|indices|, k requires 0 <= k < |indices| => cands[Unwrap(indices[k]).value].box);
    assert Resolve(boxes, indices).boxes == selected;
  }

  /** The two packagers differ in their default: targetter.py turns NMS on, target_packager.py off. */
  lemma DefaultNmsModesDiffer(inputDir: string, outputDir: string)
    ensures TargetterPackager(inputDir, outputDir).nmsMode
    ensures !StandalonePackager(inputDir, outputDir).nmsMode
  {
  }
}

=== FILE: producer.dfy ===
/**
 * One iteration of the frame producer: read a frame, stamp it with the
 * running frame id, and offer it to every output queue with that producer's
 * overflow policy. The surrounding stop-event loop and the threads are not
 * modelled; the camera read and the wall clock are parameters.
 */
module Producer {
  import opened Wrappers
  import opened Detection
  import opened Queues

  /** `{"frame": frame, "timestamp": timestamp, "frame_id": frame_id}`. */
  datatype FramePayload = FramePayload(frame: Image, timestamp: real, frameId: nat)

  /**
   * What one queue holds after the producer's per-queue code:
   * `if drop_old and q.full(): q.get_nowait()` and then `q.put_nowait(payload)`,
   * where a `Full` raised by the put drops the payload.
   */
  function Deliver<T>(items: seq<T>, capacity: nat, dropOld: bool, x: T): seq<T>
    requires capacity > 0
  {
    var afterGet := if dropOld && |items| >= capacity then items[1..] else items;
    PushDropNewest(afterGet, capacity, x)
  }

  /**
   * On a queue within its capacity, the producer's code is exactly the
   * drop-oldest policy when `drop_old` is set and the drop-newest policy
   * otherwise; either way the queue stays within its capacity.
   */
  lemma DeliverIsPolicy<T>(items: seq<T>, capacity: nat, dropOld: bool, x: T)
    requires 0 < capacity && |items| <= capacity
    ensures dropOld ==> Deliver(items, capacity, dropOld, x) == PushDropOldest(items, capacity, x)
    ensures !dropOld ==> Deliver(items, capacity, dropOld, x) == PushDropNewest(items, capacity, x)
    ensures |Deliver(items, capacity, dropOld, x)| <= capacity
  {
  }

  class FrameProducer {
    const queues: seq<BoundedQueue<FramePayload>>
    const dropOld: bool
    var frameId: nat

    /** Every output queue is within its capacity, and no queue is listed twice. */
    ghost predicate Valid()
      reads this, queues
    {
      (forall i :: 0 <= i < |queues| ==> queues[i].Valid()) &&
      (forall i, j :: 0 <= i < j < |queues| ==> queues[i] != queues[j])
    }

    constructor (outputQueues: seq<BoundedQueue<FramePayload>>, dropOld: bool := true)
      requires forall i :: 0 <= i < |outputQueues| ==> outputQueues[i].Valid()
      requires forall i, j :: 0 <= i < j < |outputQueues| ==> outputQueues[i] != outputQueues[j]
      ensures Valid()
      ensures queues == outputQueues && this.dropOld == dropOld && frameId == 0
    {
      queues := outputQueues;
      this.dropOld := dropOld;
      frameId := 0;
    }

    /**
     * One pass of the capture loop. `read` is what the camera returned
     * (`None` where `read_frame` raised); `timestamp` is the clock reading.
     * A failed read ends the loop with nothing changed. Otherwise the payload
     * carries the current frame id, the id goes up by exactly one whatever
     * the queues do, and each queue receives the payload under the policy,
     * independently of the others.
     */
    method Step(read: Option<Image>, timestamp: real) returns (payload: Option<FramePayload>)
      requires Valid()
      modifies this, queues
      ensures Valid()
      ensures read.None? ==> payload.None? && frameId == old(frameId)
      ensures read.None? ==> forall i :: 0 <= i < |queues| ==> queues[i].items == old(queues[i].items)
      ensures read.Some? ==> payload == Some(FramePayload(read.value, timestamp, old(frameId)))
      ensures read.Some? ==> frameId == old(frameId) + 1
      ensures read.Some? ==> forall i :: 0 <= i < |queues| ==>
        queues[i].items == Deliver(old(queues[i].items), queues[i].capacity, dropOld, payload.value)
    {
      if read.None? {
        payload := None;
        return;
      }
      var p := FramePayload(read.value, timestamp, frameId);
      frameId := frameId + 1;
      var i := 0;
      while i < |queues|
        invariant 0 <= i <= |queues|
        invariant Valid()
        invariant frameId == old(frameId) + 1
        invariant forall j :: 0 <= j < i ==>
          queues[j].items == Deliver(old(queues[j].items), queues[j].capacity, dropOld, p)
        invariant forall j :: i <= j < |queues| ==> queues[j].items == old(queues[j].items)
      {
        var q := queues[i];
        if dropOld && q.Full() {
          var oldest := q.GetNowait();
        }
        var accepted := q.PutNowait(p);
        i := i + 1;
      }
      payload := Some(p);
    }
  }
}

=== FILE: queues.dfy ===
/**
 * A bounded FIFO queue (Python's `queue.Queue(maxsize=capacity)` used from one
 * thread at a time) and the two overflow policies the pipeline applies at its
 * call sites: drop-oldest (the frame producer) and drop-newest (the detect
 * worker's face queue). Items are held front = oldest.
 */
module Queues {
  import opened Wrappers

  /** `put_nowait`: append when there is room, otherwise raise `Full` and leave the queue as it was. */
  function PushDropNewest<T>(items: seq<T>, capacity: nat, x: T): (r: seq<T>)
    ensures r == items + [x] <==> |items| < capacity
    ensures r == items || r == items + [x]
    ensures |items| <= capacity ==> |r| <= capacity
  {
    if |items| >= capacity then items else items + [x]
  }

  /** Remove the oldest item when the queue is full, then append: the new item always gets in. */
  function PushDropOldest<T>(items: seq<T>, capacity: nat, x: T): (r: seq<T>)
    requires capacity > 0
    ensures |r| > 0 && r[|r| - 1] == x
    ensures |items| <= capacity ==> |r| <= capacity
    ensures |items| >= capacity ==> |r| == |items| && r[..|r| - 1] == items[1..]
    ensures |items| < capacity ==> r == items + [x]
  {
    if |items| >= capacity then items[1..] + [x] else items + [x]
  }

  /** Successive drop-newest pushes of `xs`, as the detect worker does for one frame. */
  function PushAllDropNewest<T>(items: seq<T>, capacity: nat, xs: seq<T>): seq<T>
  {
    if |xs| == 0 then items
    else PushDropNewest(PushAllDropNewest(items, capacity, xs[..|xs| - 1]), capacity, xs[|xs| - 1])
  }

  /** Successive drop-oldest pushes of `xs`, as the frame producer does frame after frame. */
  function PushAllDropOldest<T>(items: seq<T>, capacity: nat, xs: seq<T>): seq<T>
    requires capacity > 0
  {
    if |xs| == 0 then items
    else PushDropOldest(PushAllDropOldest(items, capacity, xs[..|xs| - 1]), capacity, xs[|xs| - 1])
  }

  /**
   * Drop-newest keeps what was queued and admits new items, in order, until
   * the queue is full; everything offered after that is lost.
   */
  lemma {:induction false} DropNewestKeepsOldest<T>(items: seq<T>, capacity: nat, xs: seq<T>)
    requires |items| <= capacity
    ensures |items| + |xs| <= capacity ==> PushAllDropNewest(items, capacity, xs) == items + xs
    ensures |items| + |xs| > capacity ==> PushAllDropNewest(items, capacity, xs) == items + xs[..capacity - |items|]
    ensures |PushAllDropNewest(items, capacity, xs)| <= capacity
  {
    if |xs| > 0 {
      var init := xs[..|xs| - 1];
      DropNewestKeepsOldest(items, capacity, init);
      if |items| + |init| < capacity {
        assert init + [xs[|xs| - 1]] == xs;
      } else {
        assert xs[..capacity - |items|] == init[..capacity - |items|];
      }
    }
  }

  /**
   * Drop-oldest always holds the newest items offered: after pushing `xs`
   * onto a queue holding `items`, it holds the last `min(capacity, |items| + |xs|)`
   * of `items + xs`, still oldest first.
   */
  lemma {:induction false} DropOldestKeepsNewest<T>(items: seq<T>, capacity: nat, xs: seq<T>)
    requires 0 < capacity && |items| <= capacity
    ensures PushAllDropOldest(items, capacity, xs) == Newest(items + xs, capacity)
  {
    if |xs| == 0 {
      assert items + xs == items;
    } else {
      var init, x := xs[..|xs| - 1], xs[|xs| - 1];
      DropOldestKeepsNewest(items, capacity, init);
      assert items + xs == (items + init) + [x];
      NewestStep(items + init, capacity, x);
    }
  }

  /** One drop-oldest push onto the newest items of `s` gives the newest items of `s + [x]`. */
  lemma NewestStep<T>(s: seq<T>, capacity: nat, x: T)
    requires 0 < capacity
    ensures PushDropOldest(Newest(s, capacity), capacity, x) == Newest(s + [x], capacity)
  {
    var all := s + [x];
    if |s| >= capacity {
      var prev := s[|s| - capacity..];
      assert Newest(s, capacity) == prev;
      assert prev[1..] + [x] == all[|all| - capacity..];
    }
  }

  /** The last `n` items of `s`, or all of `s` when it is shorter. */
  function Newest<T>(s: seq<T>, n: nat): (r: seq<T>)
    ensures |r| == if |s| < n then |s| else n
  {
    if |s| < n then s else s[|s| - n..]
  }

  /**
   * A queue with a fixed positive capacity; `items[0]` is the oldest item.
   * The invariant is that it never holds more than `capacity` items.
   */
  class BoundedQueue<T> {
    const capacity: nat
    var items: seq<T>

    ghost predicate Valid()
      reads this
    {
      0 < capacity && |items| <= capacity
    }

    constructor (capacity: nat)
      requires capacity > 0
      ensures Valid()
      ensures this.capacity == capacity && items == []
    {
      this.capacity := capacity;
      items := [];
    }

    /** `q.full()`. */
    predicate Full()
      reads this
    {
      |items| >= capacity
    }

    /** `q.put_nowait(x)`; `accepted` is false where Python raises `Full`. */
    method PutNowait(x: T) returns (accepted: bool)
      requires Valid()
      modifies this
      ensures Valid()
      ensures accepted <==> old(|items|) < capacity
      ensures items == PushDropNewest(old(items), capacity, x)
    {
      if |items| >= capacity {
        accepted := false;
      } else {
        items := items + [x];
        accepted := true;
      }
    }

    /** `q.get_nowait()`; `None` where Python raises `Empty`. */
    method GetNowait() returns (r: Option<T>)
      requires Valid()
      modifies this
      ensures Valid()
      ensures old(items) == [] ==> r == None && items == []
      ensures old(items) != [] ==> r == Some(old(items)[0]) && items == old(items)[1..]
    {
      if |items| == 0 {
        r := None;
      } else {
        r := Some(items[0]);
        items := items[1..];
      }
    }
  }
}

=== FILE: workers.dfy ===
/**
 * The live detect worker's per-frame transform (`DetectWorker.process_frame`
 * in workers.py, line for line the same in detect_worker.py): decode every
 * detection of every output layer, keep a face whose largest score is
 * strictly above 0.5, clamp its box, skip an empty crop, and push the crop to
 * the face queue with drop-newest overflow. The detector's output for the
 * frame is a parameter; the 150x150 resize is not modelled, a crop is named
 * by its box.
 */
module Workers {
  import opened Detection
  import opened Queues
  import opened Producer

  /** `{"frame_id": frame_id, "timestamp": timestamp, "face": face_resized}`. */
  datatype FaceItem = FaceItem(frameId: nat, timestamp: real, face: Box)

  /** The crops a frame yields, in detection order, and whether decoding raised before the end. */
  datatype Scan = Scan(crops: seq<Box>, failed: bool)

  /**
   * The boxes of non-empty crops of kept detections, in order, up to the
   * first detection without class scores (where numpy raises and the rest
   * of the frame is abandoned).
   */
  function WorkerScan(ds: seq<RawDetection>, img: Image): (s: Scan)
    ensures |s.crops| <= |ds|
  {
    if |ds| == 0 then Scan([], false)
    else
      var prev := WorkerScan(ds[..|ds| - 1], img);
      if prev.failed then prev else ScanNext(prev.crops, ds[|ds| - 1], img)
  }

  /** The effect of one more detection on the crops found so far. */
  function ScanNext(crops: seq<Box>, d: RawDetection, img: Image): Scan
  {
    match WorkerVerdict(d, img)
    case Malformed => Scan(crops, true)
    case Dropped => Scan(crops, false)
    case Kept(b, _) => if CropEmpty(b, img) then Scan(crops, false) else Scan(crops + [b], false)
  }

  /** The queue items made from a frame's crops: each carries the frame's id and timestamp. */
  function FaceItems(payload: FramePayload, crops: seq<Box>): (items: seq<FaceItem>)
    ensures |items| == |crops|
    ensures forall k :: 0 <= k < |items| ==>
      items[k].frameId == payload.frameId && items[k].timestamp == payload.timestamp && items[k].face == crops[k]
  {
    seq(|crops|, k requires 0 <= k < |crops| => FaceItem(payload.frameId, payload.timestamp, crops[k]))
  }

  /** Every crop is a non-empty crop of a box lying inside the image. */
  predicate CropsInside(crops: seq<Box>, img: Image)
  {
    forall k :: 0 <= k < |crops| ==> BoxInside(crops[k], img) && !CropEmpty(crops[k], img)
  }

  lemma {:induction false} ScanCropsInside(ds: seq<RawDetection>, img: Image)
    ensures CropsInside(WorkerScan(ds, img).crops, img)
  {
    if |ds| > 0 {
      ScanCropsInside(ds[..|ds| - 1], img);
    }
  }

  /** The scan of a frame fails exactly when some detection has no class scores. */
  lemma {:induction false} ScanFailsIff(ds: seq<RawDetection>, img: Image)
    ensures WorkerScan(ds, img).failed <==> exists k :: 0 <= k < |ds| && |ds[k].scores| == 0
  {
    if |ds| > 0 {
      var init := ds[..|ds| - 1];
      ScanFailsIff(init, img);
      if WorkerScan(init, img).failed {
        var k :| 0 <= k < |init| && |init[k].scores| == 0;
        assert ds[k] == init[k];
      } else if |ds[|ds| - 1].scores| != 0 {
        forall k | 0 <= k < |ds| ensures |ds[k].scores| != 0 {
          if k < |init| {
            assert ds[k] == init[k];
          }
        }
      }
    }
  }

  /** The detection is a face scoring at most 0.5, or not a face. */
  predicate BelowThreshold(d: RawDetection)
  {
    |d.scores| > 0 && (d.scores[ArgMax(d.scores)] <= 0.5 || ArgMax(d.scores) != 1)
  }

  /**
   * A frame whose detections all score at most 0.5 (or are not faces) yields
   * nothing: only a face scoring strictly above 0.5 produces a crop.
   */
  lemma {:induction false} NoCropAtOrBelowThreshold(ds: seq<RawDetection>, img: Image)
    requires forall k :: 0 <= k < |ds| ==> BelowThreshold(ds[k])
    ensures WorkerScan(ds, img) == Scan([], false)
  {
    if |ds| > 0 {
      var init, last := ds[..|ds| - 1], ds[|ds| - 1];
      assert forall k :: 0 <= k < |init| ==> init[k] == ds[k];
      NoCropAtOrBelowThreshold(init, img);
      WorkerKeepsIff(last, img);
      assert WorkerScan(ds, img) == ScanNext([], last, img);
    }
  }

  /** The detection is a face scoring above 0.5 whose clamped crop is not empty. */
  predicate CroppedFace(d: RawDetection, img: Image)
  {
    |d.scores| > 0 && d.scores[ArgMax(d.scores)] > 0.5 && ArgMax(d.scores) == 1 && !CropEmpty(ClampBox(d, img), img)
  }

  /**
   * Every face with a score above 0.5 and a non-empty crop is pushed: a frame
   * of such detections yields one crop per detection, in detection order,
   * with no suppression of overlapping boxes.
   */
  lemma {:induction false} EveryFaceIsCropped(ds: seq<RawDetection>, img: Image)
    requires forall k :: 0 <= k < |ds| ==> CroppedFace(ds[k], img)
    ensures WorkerScan(ds, img) == Scan(ClampAll(ds, img), false)
  {
    if |ds| > 0 {
      var init, last := ds[..|ds| - 1], ds[|ds| - 1];
      assert forall k :: 0 <= k < |init| ==> init[k] == ds[k];
      EveryFaceIsCropped(init, img);
      assert WorkerScan(ds, img) == ScanNext(ClampAll(init, img), last, img);
      ScanKeepsFace(ClampAll(init, img), last, img);
      ClampAllStep(ds, img);
    }
  }

  /** The positions of the detections that are faces scoring above 0.5 with a non-empty crop. */
  function CropIndices(ds: seq<RawDetection>, img: Image): (idx: seq<nat>)
    ensures forall i :: 0 <= i < |idx| ==> idx[i] < |ds|
  {
    if |ds| == 0 then []
    else
      var prev := CropIndices(ds[..|ds| - 1], img);
      if CroppedFace(ds[|ds| - 1], img) then prev + [|ds| - 1] else prev
  }

  /** Every entry of `idx` is the position of a face of `ds` scoring above 0.5 with a non-empty crop. */
  predicate AllCropped(idx: seq<nat>, ds: seq<RawDetection>, img: Image)
  {
    forall i :: 0 <= i < |idx| ==> idx[i] < |ds| && CroppedFace(ds[idx[i]], img)
  }

  /** `CropIndices` lists, in detection order, only faces scoring above 0.5 with a non-empty crop. */
  lemma {:induction false} CropIndicesSound(ds: seq<RawDetection>, img: Image)
    ensures AllCropped(CropIndices(ds, img), ds, img)
    ensures Increasing(CropIndices(ds, img))
  {
    if |ds| > 0 {
      var init := ds[..|ds| - 1];
      CropIndicesSound(init, img);
      var prev := CropIndices(init, img);
      var idx := CropIndices(ds, img);
      forall i | 0 <= i < |prev| ensures CroppedFace(ds[prev[i]], img) {
        assert ds[prev[i]] == init[prev[i]];
      }
      if CroppedFace(ds[|ds| - 1], img) {
        assert idx == prev + [|ds| - 1];
      } else {
        assert idx == prev;
      }
    }
  }

  /** Every face scoring above 0.5 with a non-empty crop is listed by `CropIndices`, whatever else the frame holds. */
  lemma {:induction false} CropIndicesComplete(ds: seq<RawDetection>, img: Image, k: nat)
    requires k < |ds| && CroppedFace(ds[k], img)
    ensures k in CropIndices(ds, img)
  {
    var init := ds[..|ds| - 1];
    var prev := CropIndices(init, img);
    if k < |init| {
      assert init[k] == ds[k];
      CropIndicesComplete(init, img, k);
      assert CropIndices(ds, img) == prev || CropIndices(ds, img) == prev + [|ds| - 1];
    } else {
      assert CropIndices(ds, img) == prev + [|ds| - 1];
    }
  }

  /** Crop i is the clamped box of the detection at position `idx[i]`, for every i. */
  predicate CropsFollow(crops: seq<Box>, idx: seq<nat>, ds: seq<RawDetection>, img: Image)
  {
    |crops| == |idx| && forall i :: 0 <= i < |crops| ==> idx[i] < |ds| && crops[i] == ClampBox(ds[idx[i]], img)
  }

  /**
   * In a frame that does not raise, the crops pushed are exactly the clamped
   * boxes of the faces scoring above 0.5 with a non-empty crop, in detection
   * order, whatever else the frame holds: a face scoring 0.5 or less, another
   * class, or an empty crop contributes nothing.
   */
  lemma {:induction false} ScanFollowsDetections(ds: seq<RawDetection>, img: Image)
    requires !WorkerScan(ds, img).failed
    ensures CropsFollow(WorkerScan(ds, img).crops, CropIndices(ds, img), ds, img)
  {
    if |ds| > 0 {
      var init, last := ds[..|ds| - 1], ds[|ds| - 1];
      assert !WorkerScan(init, img).failed;
      ScanFollowsDetections(init, img);
      var prev, idx := WorkerScan(init, img).crops, CropIndices(init, img);
      forall i | 0 <= i < |idx| ensures ds[idx[i]] == init[idx[i]] { }
      assert |last.scores| > 0;
      if CroppedFace(last, img) {
        ScanKeepsFace(prev, last, img);
        assert WorkerScan(ds, img).crops == prev + [ClampBox(last, img)];
        assert CropIndices(ds, img) == idx + [|ds| - 1];
      } else {
        ScanSkipsOther(prev, last, img);
        assert WorkerScan(ds, img).crops == prev;
        assert CropIndices(ds, img) == idx;
      }
    }
  }

  /**
   * A detection whose largest score is at most 0.5, or whose argmax is not
   * class 1, yields no crop, even among faces that do.
   */
  lemma NoCropFromBelowThreshold(ds: seq<RawDetection>, img: Image, k: nat)
    requires k < |ds| && BelowThreshold(ds[k])
    ensures k !in CropIndices(ds, img)
  {
    CropIndicesSound(ds, img);
  }

  lemma ScanSkipsOther(crops: seq<Box>, d: RawDetection, img: Image)
    requires |d.scores| > 0 && !CroppedFace(d, img)
    ensures ScanNext(crops, d, img) == Scan(crops, false)
  {
    WorkerKeepsIff(d, img);
  }

  lemma ScanKeepsFace(crops: seq<Box>, d: RawDetection, img: Image)
    requires CroppedFace(d, img)
    ensures ScanNext(crops, d, img) == Scan(crops + [ClampBox(d, img)], false)
  {
    WorkerKeepsIff(d, img);
  }

  lemma ClampAllStep(ds: seq<RawDetection>, img: Image)
    requires |ds| > 0
    ensures ClampAll(ds, img) == ClampAll(ds[..|ds| - 1], img) + [ClampBox(ds[|ds| - 1], img)]
  {
    var init := ds[..|ds| - 1];
    assert forall k :: 0 <= k < |init| ==> init[k] == ds[k];
  }

  /** The clamped box of every detection, in order. */
  function ClampAll(ds: seq<RawDetection>, img: Image): (r: seq<Box>)
    ensures |r| == |ds| && forall k :: 0 <= k < |ds| ==> r[k] == ClampBox(ds[k], img)
  {
    seq(|ds|, k requires 0 <= k < |ds| => ClampBox(ds[k], img))
  }

  /** One more detection extends the scan of the detections before it. */
  lemma ScanStep(prefix: seq<RawDetection>, output: seq<RawDetection>, k: nat, img: Image)
    requires k < |output| && !WorkerScan(prefix + output[..k], img).failed
    ensures WorkerScan(prefix + output[..k + 1], img) == ScanNext(WorkerScan(prefix + output[..k], img).crops, output[k], img)
  {
    var after := prefix + output[..k + 1];
    assert after[..|after| - 1] == prefix + output[..k];
    assert after[|after| - 1] == output[k];
  }

  /** Once a detection has raised, later detections of the frame are not looked at. */
  lemma {:induction false} ScanStops(xs: seq<RawDetection>, ys: seq<RawDetection>, img: Image)
    requires WorkerScan(xs, img).failed
    ensures WorkerScan(xs + ys, img) == WorkerScan(xs, img)
    decreases |ys|
  {
    if |ys| == 0 {
      assert xs + ys == xs;
    } else {
      ScanStops(xs, ys[..|ys| - 1], img);
      assert (xs + ys)[..|xs + ys| - 1] == xs + ys[..|ys| - 1];
    }
  }

  lemma PushOneMore(start: seq<FaceItem>, capacity: nat, payload: FramePayload, crops: seq<Box>, box: Box)
    ensures PushAllDropNewest(start, capacity, FaceItems(payload, crops + [box])) ==
      PushDropNewest(PushAllDropNewest(start, capacity, FaceItems(payload, crops)), capacity,
                     FaceItem(payload.frameId, payload.timestamp, box))
  {
    var xs := FaceItems(payload, crops + [box]);
    assert xs[..|xs| - 1] == FaceItems(payload, crops);
  }

  class DetectWorker {
    const faceQueue: BoundedQueue<FaceItem>

    constructor (faceOutputQueue: BoundedQueue<FaceItem>)
      ensures faceQueue == faceOutputQueue
    {
      faceQueue := faceOutputQueue;
    }

    /**
     * `process_frame`: `outputs` is the detector's result for the frame, one
     * sequence per output layer. The face queue receives the frame's crops
     * under drop-newest, in order; `failed` is set where Python raises (a
     * detection without class scores), after the crops pushed so far.
     */
    method ProcessFrame(payload: FramePayload, outputs: seq<seq<RawDetection>>) returns (failed: bool)
      requires faceQueue.Valid()
      modifies faceQueue
      ensures faceQueue.Valid()
      ensures var scan := WorkerScan(Flatten(outputs), payload.frame);
        failed == scan.failed &&
        faceQueue.items == PushAllDropNewest(old(faceQueue.items), faceQueue.capacity, FaceItems(payload, scan.crops))
    {
      var img := payload.frame;
      ghost var start := faceQueue.items;
      ghost var crops: seq<Box> := [];
      var o := 0;
      while o < |outputs|
        invariant 0 <= o <= |outputs|
        invariant faceQueue.Valid()
        invariant WorkerScan(Flatten(outputs[..o]), img) == Scan(crops, false)
        invariant faceQueue.items == PushAllDropNewest(start, faceQueue.capacity, FaceItems(payload, crops))
      {
        var output := outputs[o];
        var k := 0;
        assert Flatten(outputs[..o]) + output[..0] == Flatten(outputs[..o]);
        while k < |output|
          invariant 0 <= k <= |output|
          invariant faceQueue.Valid()
          invariant WorkerScan(Flatten(outputs[..o]) + output[..k], img) == Scan(crops, false)
          invariant faceQueue.items == PushAllDropNewest(start, faceQueue.capacity, FaceItems(payload, crops))
        {
          var d := output[k];
          ScanStep(Flatten(outputs[..o]), output, k, img);
          var c := Classify(d.scores);
          if c.None? {
            ghost var all := Flatten(outputs);
            ghost var done := Flatten(outputs[..o]) + output[..k + 1];
            FlattenPrefix(outputs, o, k + 1);
            assert done + all[|done|..] == all;
            ScanStops(done, all[|done|..], img);
            failed := true;
            return;
          }
          var classId, confidence := c.value.classId, c.value.confidence;
          ghost var next := ScanNext(crops, d, img);
          if confidence > 0.5 {
            var box := ClampBox(d, img);
            if classId == 1 {
              assert WorkerVerdict(d, img) == Kept(box, confidence);
              if !CropEmpty(box, img) {
                var item := FaceItem(payload.frameId, payload.timestamp, box);
                PushOneMore(start, faceQueue.capacity, payload, crops, box);
                var accepted := faceQueue.PutNowait(item);
                crops := crops + [box];
              }
            } else {
              assert WorkerVerdict(d, img) == Dropped;
            }
          } else {
            assert WorkerVerdict(d, img) == Dropped;
          }
          assert next == Scan(crops, false);
          assert WorkerScan(Flatten(outputs[..o]) + output[..k + 1], img) == next;
          k := k + 1;
        }
        FlattenPrefix(outputs, o, |output|);
        assert output[..|output|] == output;
        FlattenStep(outputs, o);
        o := o + 1;
      }
      assert outputs[..|outputs|] == outputs;
      failed := false;
    }
  }
}

=== FILE: wrappers.dfy ===
/** The optional-value datatype used for results that may be absent. */
module Wrappers {

  datatype Option<T> = None | Some(value: T)
}
